=== FILE: README.md ===
# Friend roulette overlap calculator, modelled in Dafny

This project models the friend-overlap calculator of the friend-roulette
repository (`friend-roulette-overlaps.py`). Respondents fill in a form.
For each hour block ("9am - 10am") they tick the weekdays on which they are
free. The calculator reads the answers and reports, for every pair of
respondents, the days on which some block suits both. Each reported day
carries the condensed time ranges of those shared blocks.

The model has one module per part of the script, plus the Python built-ins
those parts lean on:

| file | module | what it models |
|---|---|---|
| results.dfy | `Results` | `Option`/`Result` wrappers and the errors that abort a run |
| text.dfy | `Text` | `str.strip`, `rstrip(c)`, `in`, `replace(pat, '')`, `split`, `join` |
| numerals.dfy | `Numerals` | `int()` in base 10 and `str()` of an integer |
| lex.dfy | `Lex` | Python's string order and `sorted()` of a set of strings |
| clock.dfy | `Clock` | `hour_to_minutes`, `minutes_to_hour` |
| cells.dfy | `Cells` | `parse_availability` |
| blocks.dfy | `Blocks` | `condense_hour_blocks` |
| loader.dfy | `Loader` | the per-row and header logic of `load_availability_data` |
| overlap.dfy | `Overlap` | `find_overlapping_pairs_by_day` |

The model is written in these terms:

- A CSV table is a header line (`fieldnames`) plus rows. Each row maps a
  header to its cell.
- A respondent is a `Person`: an identifier together with a map from block
  label to a set of days.
- The loaded dictionary is a sequence of persons in insertion order.
- A Python exception that the script lets escape becomes an `Err` of
  `Results.Error`. These are an unreadable hour label, a block header with
  no `[`, and a row with no identifier.

Headline results:

- **Hour labels.** The 24 canonical labels ("12am" … "11pm") read as
  0 … 1380 minutes and render back to themselves. Every whole hour except
  1440 minutes reads back from its label.
- **Condensing.** The condensed ranges are sorted and never adjacent. For
  blocks whose start is not after their end, they cover exactly the minutes
  the input blocks cover. For disjoint non-empty blocks, consecutive ranges
  leave a gap, so each range is maximal. Condensing is idempotent, and it
  does not depend on input order once starts are distinct.
- **Loading.** The row with the last occurrence of an identifier wins. Only
  non-empty day sets are stored.
- **Overlaps.** A pair is reported exactly when some block suits both on
  some day. The pair is keyed earlier-respondent-first, in `combinations`
  order. Its days appear in increasing order, and each day carries that
  day's condensed ranges.

## Model

| member | source | states |
|---|---|---|
| Text.Strip | friend-roulette-overlaps.py:15 | `strip()` is empty exactly when the text is all whitespace; otherwise it neither starts nor ends with whitespace |
| Text.IsSpace | friend-roulette-overlaps.py:7-15 | the whitespace `strip()` removes: exactly the characters for which Python's `str.isspace()` holds; `Text.Strip` and `Text.StripSlice` state what stripping does with them |
| Text.StripSlice | friend-roulette-overlaps.py:15 | `strip()` returns one contiguous slice of the text, and everything cut before and after that slice is whitespace |
| Text.Split | friend-roulette-overlaps.py:10 | `split(sep)` yields at least one piece, no piece holds `sep`, and joining the pieces with `sep` restores the text |
| Text.SplitChar | friend-roulette-overlaps.py:92 | with a one-character separator no piece holds it, and there is a single piece exactly when the text lacks it |
| Text.SplitLeftmost | friend-roulette-overlaps.py:10 | `split(sep)` cuts at the leftmost occurrences: no occurrence of `sep` starts inside a piece followed by a cut, not even one running into the cut |
| Text.SplitJoin | friend-roulette-overlaps.py:55 | splitting a join recovers the parts when no part holds the separator's first character |
| Text.Contains | friend-roulette-overlaps.py:18 | `'am' in time_str`: the pattern occurs somewhere in the text; `Text.RemoveAll` leaves text without it unchanged and `Clock.SuffixedStrips` relies on a numeral followed by "am" containing it |
| Text.RStripChar | friend-roulette-overlaps.py:10 | `rstrip('s')` removes exactly the trailing run of `s`: the result is a prefix, every removed character is `s`, and the result does not end in `s` |
| Text.RemoveAll | friend-roulette-overlaps.py:19 | `replace(pat, '')` never lengthens the text, leaves text without the pattern unchanged, and is shorter by at least the pattern's length when the text holds it |
| Text.RemoveAllIsJoinSplit | friend-roulette-overlaps.py:19 | `replace(pat, '')` equals `''.join(s.split(pat))`: exactly the occurrences `split` cuts at are removed |
| Text.RemoveAllSuffix | friend-roulette-overlaps.py:19-24 | removing `pat` from a text followed by `pat` gives back the text when the text lacks `pat`'s first character, as "7am" loses exactly its "am" |
| Numerals.IntToString | friend-roulette-overlaps.py:36-40 | `str(i)` is non-empty, holds no whitespace, and starts with '-' exactly when `i` is negative |
| Numerals.ParseInt | friend-roulette-overlaps.py:19-24 | `int()` as the hour parser calls it; what it reads is stated by `Numerals.ParseIntNegative`, `Numerals.ParseIntUnsigned` and `Numerals.ParseIntOfIntToString` |
| Numerals.ParseIntNegative | friend-roulette-overlaps.py:19-24 | `int()` reads '-' followed by digits as the negated value of the digits |
| Numerals.ParseIntUnsigned | friend-roulette-overlaps.py:19-24 | `int()` reads a run of digits as its decimal value |
| Numerals.ParseIntOfIntToString | friend-roulette-overlaps.py:19 | `int(str(i)) == i` for every integer `i` |
| Lex.LessEq | friend-roulette-overlaps.py:122 | Python's string order: code point by code point, a proper prefix first; `Lex.LessEqTotal`, `Lex.LessEqTransitive` and `Lex.LessEqAntisymmetric` state that it is a total order |
| Lex.LessEqTotal | friend-roulette-overlaps.py:122 | any two strings are ordered one way or the other |
| Lex.LessEqTransitive | friend-roulette-overlaps.py:122 | the string order is transitive |
| Lex.LessEqAntisymmetric | friend-roulette-overlaps.py:122 | two strings ordered both ways are equal |
| Lex.SortedElements | friend-roulette-overlaps.py:122 | `sorted()` of a set lists every element exactly once, in strictly increasing string order |
| Clock.HourToMinutes | friend-roulette-overlaps.py:13-28 | a label that reads at all reads as a whole number of hours |
| Clock.MinutesToHour | friend-roulette-overlaps.py:30-40 | a label has no whitespace and ends in "am" exactly when the hour is below twelve |
| Clock.DayHour | friend-roulette-overlaps.py:20-26 | a clock hour from 1 to 12 lands in the morning or afternoon half of the day it names, at the same place on the clock face |
| Clock.AmHour | friend-roulette-overlaps.py:18-22 | "<i>am" reads as hour `i`, with "12am" being midnight |
| Clock.PmHour | friend-roulette-overlaps.py:23-26 | "<i>pm" reads as hour `i + 12`, with "12pm" being noon |
| Clock.BareHourIsPm | friend-roulette-overlaps.py:18-26 | a bare number without "am" reads like the same number followed by "pm" |
| Clock.LabelMinutes | friend-roulette-overlaps.py:13-28 | the 24 canonical labels read as 0 for "12am", h·60 for "<h>am", 720 for "12pm" and (h+12)·60 for "<h>pm", all within [0, 1380] |
| Clock.LabelRoundTrip | friend-roulette-overlaps.py:13-40 | each canonical label is what its own minutes render as |
| Clock.MorningRoundTrip | friend-roulette-overlaps.py:13-36 | every whole hour below twelve hours, negative ones included, reads back from its "am" label |
| Clock.AfternoonRoundTrip | friend-roulette-overlaps.py:13-40 | every whole hour from twelve hours on, other than 1440 minutes, reads back from its "pm" label |
| Clock.MinutesRoundTrip | friend-roulette-overlaps.py:13-40 | every whole hour other than 1440 minutes reads back from its label, including hours outside one day |
| Clock.RoundTripFailsAtDayEnd | friend-roulette-overlaps.py:30-40 | 1440 minutes renders as "12pm", which reads back as 720 |
| Cells.NormalizeDay | friend-roulette-overlaps.py:10 | a normalised item is a prefix of the stripped item, and everything it drops from the end is `s`; it starts with no whitespace, does not end in `s`, and holds no character the item lacked |
| Cells.ParseAvailability | friend-roulette-overlaps.py:5-11 | a cell yields no days exactly when it is blank; no day holds a comma or ends in `s`; there are never more days than comma-separated items |
| Cells.ParseAvailabilityItems | friend-roulette-overlaps.py:5-11 | a non-blank cell holds exactly the day names of its comma-separated items, each stripped and with its trailing `s` run removed, equal names collapsing |
| Cells.ParseRenderedCell | friend-roulette-overlaps.py:5-11 | a cell written as "Mondays, Wednesdays" parses back to exactly the singular day names it lists, duplicates collapsing |
| Blocks.ParseBlock | friend-roulette-overlaps.py:54-57 | a block label reads only when it splits on " - " into exactly two pieces, and then both ends are whole hours |
| Blocks.RenderBlock | friend-roulette-overlaps.py:71-75 | writes a range as "<start> - <end>"; `Blocks.ParseRenderBlock` states that the label reads back as the same block |
| Blocks.ParseRenderBlock | friend-roulette-overlaps.py:55-71 | a block with renderable ends, written as "<start> - <end>", reads back as the same block |
| Blocks.ParseEach | friend-roulette-overlaps.py:53-58 | the parse loop: it succeeds exactly when every label reads, then pointwise in order; a failure is the error of some label |
| Blocks.ParseBlocks | friend-roulette-overlaps.py:54-58 | the labels read exactly when each one does, pointwise; a failure names one of the labels |
| Blocks.Insert | friend-roulette-overlaps.py:48 | insertion adds exactly the one block, as a multiset, and lengthens the sequence by one |
| Blocks.InsertSorted | friend-roulette-overlaps.py:48 | inserting into a sequence sorted by start keeps it sorted by start |
| Blocks.InsertStable | friend-roulette-overlaps.py:48 | an inserted block goes before every block with the same start |
| Blocks.SortByStart | friend-roulette-overlaps.py:48 | the sort by start is a sorted permutation, and it is stable: blocks with equal starts keep their order |
| Blocks.MergeFrom | friend-roulette-overlaps.py:61-75 | the merge loop yields 1 to n+1 ranges, the first starting where the running range starts, and no range ends where the next starts |
| Blocks.MergeEndpoints | friend-roulette-overlaps.py:61-75 | every start of a merged range is the start of some input block, and every end is the end of some input block |
| Blocks.MergeSorted | friend-roulette-overlaps.py:61-75 | merging blocks sorted by start gives ranges sorted by start |
| Blocks.CondenseBlocks | friend-roulette-overlaps.py:44-75 | no ranges exactly for no blocks, and never more ranges than blocks; ranges are sorted by start and never adjacent; each endpoint is some block's endpoint |
| Blocks.CondenseCovers | friend-roulette-overlaps.py:61-75 | for blocks whose start is not after their end, the condensed ranges cover exactly the minutes the blocks cover |
| Blocks.CondenseSeparated | friend-roulette-overlaps.py:44-75 | for non-empty blocks that share no minute, each condensed range ends strictly before the next starts: ranges neither overlap nor touch |
| Blocks.CondenseIdempotent | friend-roulette-overlaps.py:44-75 | condensing condensed ranges changes nothing |
| Blocks.CondenseStable | friend-roulette-overlaps.py:48 | inputs that agree on the blocks of each start, in order, condense alike |
| Blocks.CondenseOrderIndependent | friend-roulette-overlaps.py:48-75 | two orderings of the same blocks with distinct starts condense to the same ranges |
| Blocks.RenderAll | friend-roulette-overlaps.py:71-75 | writes each condensed range, in order; `Blocks.ParseRenderAll` states that the labels read back as the same blocks |
| Blocks.CondenseHourBlocks | friend-roulette-overlaps.py:42-77 | no labels give no ranges; the labels condense exactly when each reads; non-empty input gives 1 to n ranges |
| Blocks.CondenseHourBlocksOrderIndependent | friend-roulette-overlaps.py:42-77 | two listings of the same labels, whose blocks start at distinct minutes, condense to the same ranges |
| Blocks.CondensedLabelsReadBack | friend-roulette-overlaps.py:42-77 | readable labels condense to labels that read back as the condensed blocks |
| Blocks.CondenseHourBlocksIdempotent | friend-roulette-overlaps.py:42-77 | condensing already condensed labels gives them back unchanged |
| Blocks.CondenseHourBlocksCovers | friend-roulette-overlaps.py:42-77 | for readable labels whose blocks do not start after they end, the condensed labels read back and cover exactly the minutes the input labels cover |
| Blocks.CondenseEnumerated | friend-roulette-overlaps.py:42-58 | condensing any listing of a set of labels succeeds exactly when every label reads, and gives at least one range for a non-empty set |
| Loader.IsBlockHeader | friend-roulette-overlaps.py:91 | `col_header.startswith(...)`: the header opens with the hour-block question; `Loader.RowAvailabilityLastWins` states that only such columns store days |
| Loader.BlockLabel | friend-roulette-overlaps.py:92 | a header yields a label exactly when it holds `[`; the label holds neither `[` nor `]` |
| Loader.BlockLabelOfHeader | friend-roulette-overlaps.py:92 | for a header "<before>[<label>]<after>" where neither `<before>` nor the label holds `[` and the label holds no `]`, the label read is exactly `<label>` |
| Loader.CellDays | friend-roulette-overlaps.py:93 | a column yields days exactly when its cell is present and not blank |
| Loader.RowAvailabilityFrom | friend-roulette-overlaps.py:90-96 | the header loop for one row; its contract is stated by `Loader.RowAvailabilityFromFacts` |
| Loader.RowAvailabilityFromFacts | friend-roulette-overlaps.py:90-96 | the header loop succeeds exactly when every block header holds `[`; it keeps earlier entries and stores no empty day set |
| Loader.RowAvailability | friend-roulette-overlaps.py:88-96 | the availability one row records; `Loader.RowAvailabilityLastWins` states what it stores |
| Loader.RowAvailabilityLastWins | friend-roulette-overlaps.py:90-96 | a row stores a block exactly when some column with that label has ticked days, and it stores the days of the last such column |
| Loader.Lookup | friend-roulette-overlaps.py:98 | an identifier is found exactly when some stored person carries it |
| Loader.Upsert | friend-roulette-overlaps.py:98 | `data[id] = availability`; its contract is stated by `Loader.UpsertFacts` |
| Loader.UpsertFacts | friend-roulette-overlaps.py:98 | after `data[id] = availability`, `id` maps to the new availability and every other identifier maps as before; a new identifier goes at the end, a known one keeps its place |
| Loader.UpsertKeepsDistinct | friend-roulette-overlaps.py:98 | storing keeps the identifiers distinct |
| Loader.LoadRow | friend-roulette-overlaps.py:86-98 | one row loads exactly when it has an identifier and every block header holds `[`; identifiers stay distinct |
| Loader.LoadRows | friend-roulette-overlaps.py:86-98 | loading keeps identifiers distinct and stores no empty day set |
| Loader.LoadRowsSucceeds | friend-roulette-overlaps.py:86-98 | the rows load exactly when there are none or every block header holds `[`, and every row has an identifier |
| Loader.Load | friend-roulette-overlaps.py:79-100 | the table loads exactly when it has no rows or well-formed block headers, and every row is identified |
| Loader.LoadOrder | friend-roulette-overlaps.py:98 | respondents come out in the order of each identifier's first row |
| Loader.LoadLastRowWins | friend-roulette-overlaps.py:98 | an identifier is stored exactly when some row carries it, with the availability of its last row |
| Loader.LoadFacts | friend-roulette-overlaps.py:79-100 | a loaded table has distinct identifiers in first-row order, no empty day sets, and each identifier's availability is that of its last row |
| Loader.LookupDistinct | friend-roulette-overlaps.py:98 | with distinct identifiers, looking up a respondent's identifier finds that respondent's availability |
| Overlap.CommonDays | friend-roulette-overlaps.py:112-115 | `days1.intersection(days2)` with a missing block read as no days; `Overlap.SharedBlocksIff` relates it to the shared days |
| Overlap.BlocksOn | friend-roulette-overlaps.py:117-118 | the blocks appended to `day_to_hours[day]`: those both list with that day; `Overlap.DayRangesFacts` states what condensing them gives |
| Overlap.SharedDays | friend-roulette-overlaps.py:111-118 | the keys of `day_to_hours`; `Overlap.SharedDaysIff` states them through `BlocksOn` |
| Overlap.SharedDaysIff | friend-roulette-overlaps.py:111-118 | a day is a key of `day_to_hours` exactly when some block suits both on it |
| Overlap.SharedBlocksIff | friend-roulette-overlaps.py:111-118 | a block is shared exactly when it is listed under some shared day |
| Overlap.DayRanges | friend-roulette-overlaps.py:111-124 | one day's shared blocks, condensed; its contract is stated by `Overlap.DayRangesFacts` |
| Overlap.DayRangesFacts | friend-roulette-overlaps.py:124 | a day's ranges are built exactly when each block shared that day reads, and there is at least one range when some block is shared that day |
| Overlap.ScheduleDays | friend-roulette-overlaps.py:122-126 | the day loop succeeds exactly when every day's ranges are built; each entry is the day's plural with that day's ranges |
| Overlap.ScheduleSetFacts | friend-roulette-overlaps.py:122-126 | over the days of a set in increasing order, when each has ranges: one entry per day, keyed by its plural, in increasing order, with that day's ranges |
| Overlap.PairSchedule | friend-roulette-overlaps.py:108-126 | `formatted_result` for one pair; its contract is stated by `Overlap.PairScheduleSucceeds` and `Overlap.PairScheduleFacts` |
| Overlap.PairScheduleSucceeds | friend-roulette-overlaps.py:108-126 | a pair's schedule is built exactly when every block both share reads |
| Overlap.PairScheduleFacts | friend-roulette-overlaps.py:108-126 | a pair's schedule has an entry keyed `day + "s"` exactly for each day some block suits both on, in increasing day order, each with that day's non-empty condensed ranges; it is empty exactly when nothing is shared |
| Overlap.ReportedIffShares | friend-roulette-overlaps.py:120-129 | a built schedule is reported exactly when the pair shares a block on some day |
| Overlap.Combinations | friend-roulette-overlaps.py:107 | `combinations(ids, 2)` yields every index pair i < j, each in range, in strictly increasing lexicographic order |
| Overlap.ReportedPairsMembers | friend-roulette-overlaps.py:128-129 | a visited pair is reported exactly when its schedule is built and non-empty |
| Overlap.ReportedPairsSorted | friend-roulette-overlaps.py:107-129 | reported pairs keep the visiting order |
| Overlap.CollectOverlaps | friend-roulette-overlaps.py:107-129 | the loop over the pairs; its contract is stated by `Overlap.CollectOverlapsSucceeds` and `Overlap.CollectOverlapsEntries` |
| Overlap.CollectOverlapsSucceeds | friend-roulette-overlaps.py:107-129 | the pair loop succeeds exactly when each visited pair's schedule is built |
| Overlap.CollectOverlapsEntries | friend-roulette-overlaps.py:107-129 | entry k of the report carries the two identifiers and the schedule of the k-th reported pair |
| Overlap.CollectAllSucceeds | friend-roulette-overlaps.py:107-129 | over a listing of every pair i < j, the loop succeeds exactly when every such pair's schedule is built |
| Overlap.CollectAllFacts | friend-roulette-overlaps.py:107-129 | over every pair in increasing order, a pair is reported exactly when it shares a block, each entry carrying that pair's non-empty schedule |
| Overlap.FindOverlappingPairsByDay | friend-roulette-overlaps.py:102-131 | `find_overlapping_pairs_by_day`; its contract is stated by `Overlap.FindOverlapsSucceeds`, `Overlap.FindOverlapsFacts` and `Overlap.FindOverlapsPairs` |
| Overlap.FindOverlapsSucceeds | friend-roulette-overlaps.py:102-131 | the report is built exactly when every block any pair shares reads |
| Overlap.FindOverlapsFacts | friend-roulette-overlaps.py:102-131 | the report lists the pairs i < j that share a block, in `combinations` order, earlier respondent first, each with its schedule |
| Overlap.DistinctReport | friend-roulette-overlaps.py:107-129 | entries keyed by identifiers of increasing index pairs i < j have no self-pair and no pair twice in either order |
| Overlap.FindOverlapsPairs | friend-roulette-overlaps.py:102-131 | with distinct identifiers: no self-pair, no pair twice in either order, and two respondents appear together exactly when they share a block |

## Left out

- The CSV file, its encoding and `csv.DictReader` are not modelled. A table is given as its header line and its rows.
- A short row's missing cells are modelled as absent from the row's map. `csv.DictReader` fills them with `None`, and the model reads an absent cell as no days, which is what `parse_availability(None)` gives.
- A row without an identifier stops the load with `MissingIdentifier`. The script would instead store the respondent under the key `None`.
- `main` is not modelled because it only prints. The website, the HTTP server, the Discord bot and the remote-agent scripts are not modelled either: they are I/O, networking and UI glue.
- Python's `int()` also accepts underscores between digits and non-ASCII decimal digits. `Numerals.ParseInt` accepts only an optional sign and ASCII digits.
- The script visits a set of hour blocks in hash order, which is unspecified. The model lists the day's blocks in increasing string order instead. `Blocks.CondenseHourBlocksOrderIndependent` shows the order does not matter when a day's blocks have distinct starts. Blocks with a repeated start are not covered: the script's stable sort then keeps the hash order among them.
- `Blocks.CondenseHourBlocks`: when several labels are malformed, the script raises for whichever its sort or parse loop meets first. The model's error names some malformed label, but not necessarily that one.
- `Blocks.CondenseHourBlocksCovers` and `Blocks.CondenseCovers` require every block's start to be no later than its end. A block ending at "12am", such as "11pm - 12am", reads as `Block(1380, 0)` because 12am is minute 0; it covers no minute, and condensing it with "10pm - 11pm" gives `Block(1320, 0)`, which covers no minute either. Coverage is not promised for such blocks.
- `Clock.MinutesRoundTrip` excludes 1440 minutes. `minutes_to_hour` writes it as "12pm", which reads back as noon, as `Clock.RoundTripFailsAtDayEnd` states. No canonical label reads as 1440.
- Python `dict`s are modelled as sequences in insertion order: the loaded data, each pair's `formatted_result`, and the report. Keys do not repeat: identifiers by `Loader.LoadFacts`, days by `Overlap.PairScheduleFacts`, and pairs by `Overlap.FindOverlapsPairs`.

=== FILE: blocks.dfy ===
/** Hour blocks and the range condenser (friend-roulette-overlaps.py,
    condense_hour_blocks): a day's "<start> - <end>" labels are sorted by
    start time and merged into ranges wherever a block starts exactly when
    the running range ends. */
module Blocks {
  import opened Results
  import opened Text
  import opened Clock

  /** A block of time in minutes since midnight, taken as the half-open
      interval [start, end). */
  datatype Block = Block(start: int, end: int)

  /** The text between the two hours of a block label. */
  const Separator: string := " - "

  /** The block a label such as "7am - 8am" names. The label must split on
      " - " into exactly two hours that `HourToMinutes` accepts; otherwise
      the calculator raises a ValueError (from unpacking the split or from
      `int()`), modelled as `MalformedBlockLabel`. */
  function ParseBlock(blockLabel: string): (r: Result<Block>)
    ensures r.Ok? ==> r.value.start % 60 == 0 && r.value.end % 60 == 0
    ensures r.Ok? ==> |Split(blockLabel, Separator)| == 2
  {
    var parts := Split(blockLabel, Separator);
    if |parts| != 2 then Err(MalformedBlockLabel(blockLabel))
    else
      match (HourToMinutes(parts[0]), HourToMinutes(parts[1]))
      case (Some(s), Some(e)) => Ok(Block(s, e))
      case _ => Err(MalformedBlockLabel(blockLabel))
  }

  /** The label "<start> - <end>" of a block. */
  function RenderBlock(b: Block): string {
    MinutesToHour(b.start) + Separator + MinutesToHour(b.end)
  }

  /** A block boundary the label format can write and read back: a whole
      hour other than 1440 minutes (which is written "12pm"). */
  predicate Renderable(b: Block) {
    b.start % 60 == 0 && b.end % 60 == 0 && b.start != 1440 && b.end != 1440
  }

  /** The hour labels of two renderable boundaries are recovered by
      splitting the block label. */
  lemma SplitRendered(b: Block)
    ensures Split(RenderBlock(b), Separator) == [MinutesToHour(b.start), MinutesToHour(b.end)]
  {
    var a := MinutesToHour(b.start);
    var c := MinutesToHour(b.end);
    assert IsSpace(' ');
    assert Avoids(a, ' ') && Avoids(c, ' ');
    SplitPair(a, c, Separator);
  }

  /** Reading a rendered block gives the block back. */
  lemma ParseRenderBlock(b: Block)
    requires Renderable(b)
    ensures ParseBlock(RenderBlock(b)) == Ok(b)
  {
    SplitRendered(b);
    MinutesRoundTrip(b.start);
    MinutesRoundTrip(b.end);
  }

  /** The parse loop of `condense_hour_blocks` with `parse` reading one
      label: every label read, in order, and the first failure reported. */
  function ParseEach<T>(labels: seq<string>, parse: string -> Result<T>): (r: Result<seq<T>>)
    ensures r.Ok? <==> forall i :: 0 <= i < |labels| ==> parse(labels[i]).Ok?
    ensures r.Ok? ==> |r.value| == |labels|
    ensures r.Ok? ==> forall i :: 0 <= i < |labels| ==> parse(labels[i]) == Ok(r.value[i])
    ensures r.Err? ==> exists i :: 0 <= i < |labels| && parse(labels[i]) == Err(r.error)
    decreases |labels|
  {
    if labels == [] then Ok([])
    else
      assert forall i :: 1 <= i < |labels| ==> labels[1..][i - 1] == labels[i];
      var b :- parse(labels[0]);
      var rest :- ParseEach(labels[1..], parse);
      Ok([b] + rest)
  }

  /** Every label read as a block, in order; the first malformed label is
      reported. */
  function ParseBlocks(labels: seq<string>): (r: Result<seq<Block>>)
    ensures r.Ok? <==> forall i :: 0 <= i < |labels| ==> ParseBlock(labels[i]).Ok?
    ensures r.Ok? ==> |r.value| == |labels|
    ensures r.Ok? ==> forall i :: 0 <= i < |labels| ==> ParseBlock(labels[i]) == Ok(r.value[i])
    ensures r.Err? ==> exists i :: 0 <= i < |labels| && ParseBlock(labels[i]) == Err(r.error)
  {
    ParseEach(labels, ParseBlock)
  }

  /** Starts never decrease along `bs`. */
  predicate SortedByStart(bs: seq<Block>) {
    forall i, j :: 0 <= i < j < |bs| ==> bs[i].start <= bs[j].start
  }

  /** No two blocks of `bs` start at the same minute. */
  predicate DistinctStarts(bs: seq<Block>) {
    forall i, j :: 0 <= i < j < |bs| ==> bs[i].start != bs[j].start
  }

  /** The blocks of `bs` that start at minute `k`, in their order in `bs`. */
  function WithStart(bs: seq<Block>, k: int): seq<Block> {
    if bs == [] then []
    else (if bs[0].start == k then [bs[0]] else []) + WithStart(bs[1..], k)
  }

  lemma WithStartCons(b: Block, bs: seq<Block>, k: int)
    ensures WithStart([b] + bs, k) == (if b.start == k then [b] else []) + WithStart(bs, k)
  {
    assert ([b] + bs)[1..] == bs;
  }

  /** `b` placed before the first block of `bs` that starts no earlier. */
  function Insert(b: Block, bs: seq<Block>): (r: seq<Block>)
    ensures |r| == |bs| + 1
    ensures multiset(r) == multiset(bs) + multiset{b}
    decreases |bs|
  {
    if bs == [] || b.start <= bs[0].start then [b] + bs
    else
      assert bs == [bs[0]] + bs[1..];
      [bs[0]] + Insert(b, bs[1..])
  }

  /** A sorted sequence without its first block is sorted. */
  lemma SortedTail(bs: seq<Block>)
    requires bs != [] && SortedByStart(bs)
    ensures SortedByStart(bs[1..])
    ensures forall x :: x in bs[1..] ==> bs[0].start <= x.start
  {
    assert forall i :: 0 <= i < |bs| - 1 ==> bs[1..][i] == bs[i + 1];
  }

  /** Inserting into a sorted sequence keeps it sorted. */
  lemma {:induction false} InsertSorted(b: Block, bs: seq<Block>)
    requires SortedByStart(bs)
    ensures SortedByStart(Insert(b, bs))
    decreases |bs|
  {
    if bs != [] && b.start > bs[0].start {
      var tail := Insert(b, bs[1..]);
      var r := Insert(b, bs);
      assert r == [bs[0]] + tail;
      SortedTail(bs);
      InsertSorted(b, bs[1..]);
      forall j | 0 < j < |r| ensures bs[0].start <= r[j].start {
        var x := r[j];
        assert x == tail[j - 1];
        assert x in multiset(bs[1..]) + multiset{b};
      }
    }
  }

  /** Inserting keeps the order of the blocks of each start, `b` coming
      first among those with its own start. */
  lemma {:induction false} InsertStable(b: Block, bs: seq<Block>, k: int)
    ensures WithStart(Insert(b, bs), k) == (if b.start == k then [b] else []) + WithStart(bs, k)
    decreases |bs|
  {
    if bs == [] || b.start <= bs[0].start {
      WithStartCons(b, bs, k);
    } else {
      var tail := Insert(b, bs[1..]);
      assert Insert(b, bs) == [bs[0]] + tail;
      assert bs == [bs[0]] + bs[1..];
      WithStartCons(bs[0], tail, k);
      WithStartCons(bs[0], bs[1..], k);
      InsertStable(b, bs[1..], k);
    }
  }

  /** `hour_blocks.sort(key=start)`: Python's sort is stable, so the result is
      sorted by start, holds the same blocks, and keeps the input order of
      blocks that share a start. */
  function SortByStart(bs: seq<Block>): (r: seq<Block>)
    ensures |r| == |bs|
    ensures SortedByStart(r)
    ensures multiset(r) == multiset(bs)
    ensures forall k :: WithStart(r, k) == WithStart(bs, k)
  {
    if bs == [] then []
    else
      var r := Insert(bs[0], SortByStart(bs[1..]));
      InsertSorted(bs[0], SortByStart(bs[1..]));
      assert bs == [bs[0]] + bs[1..];
      assert forall k :: WithStart(r, k) == WithStart(bs, k) by {
        forall k ensures WithStart(r, k) == WithStart(bs, k) {
          InsertStable(bs[0], SortByStart(bs[1..]), k);
          WithStartCons(bs[0], bs[1..], k);
        }
      }
      r
  }

  /** Consecutive ranges never touch: a range never ends where the next one
      starts. */
  predicate NonAdjacent(bs: seq<Block>) {
    forall i :: 0 <= i < |bs| - 1 ==> bs[i].end != bs[i + 1].start
  }

  function Starts(bs: seq<Block>): set<int> {
    set i | 0 <= i < |bs| :: bs[i].start
  }

  function Ends(bs: seq<Block>): set<int> {
    set i | 0 <= i < |bs| :: bs[i].end
  }

  /** The merge loop of `condense_hour_blocks`, with `cur` the running range
      and `rest` the blocks still to visit: a block that starts where the
      running range ends extends it; any other block closes the running
      range and becomes the new one. */
  function MergeFrom(cur: Block, rest: seq<Block>): (r: seq<Block>)
    ensures 1 <= |r| <= |rest| + 1
    ensures r[0].start == cur.start
    ensures NonAdjacent(r)
    decreases |rest|
  {
    if rest == [] then [cur]
    else if rest[0].start == cur.end then
      MergeFrom(Block(cur.start, rest[0].end), rest[1..])
    else
      [cur] + MergeFrom(rest[0], rest[1..])
  }

  lemma StartsEndsCons(b: Block, bs: seq<Block>)
    ensures Starts([b] + bs) == {b.start} + Starts(bs)
    ensures Ends([b] + bs) == {b.end} + Ends(bs)
  {
    var w := [b] + bs;
    assert forall i :: 0 <= i < |bs| ==> w[i + 1] == bs[i];
    forall x | x in Starts(w) ensures x in {b.start} + Starts(bs) {
      var i :| 0 <= i < |w| && w[i].start == x;
      if i > 0 { assert bs[i - 1].start == x; }
    }
    forall x | x in Ends(w) ensures x in {b.end} + Ends(bs) {
      var i :| 0 <= i < |w| && w[i].end == x;
      if i > 0 { assert bs[i - 1].end == x; }
    }
    assert w[0] == b;
  }

  /** Every merged range starts at the running range's start or at a later
      block's start, and ends at the running range's end or at a later
      block's end. */
  lemma {:induction false} MergeEndpoints(cur: Block, rest: seq<Block>)
    ensures forall k :: 0 <= k < |MergeFrom(cur, rest)| ==>
      MergeFrom(cur, rest)[k].start in Starts([cur] + rest) && MergeFrom(cur, rest)[k].end in Ends([cur] + rest)
    decreases |rest|
  {
    StartsEndsCons(cur, rest);
    if rest != [] {
      StartsEndsCons(rest[0], rest[1..]);
      assert [rest[0]] + rest[1..] == rest;
      if rest[0].start == cur.end {
        var grown := Block(cur.start, rest[0].end);
        MergeEndpoints(grown, rest[1..]);
        StartsEndsCons(grown, rest[1..]);
      } else {
        MergeEndpoints(rest[0], rest[1..]);
        var r := MergeFrom(cur, rest);
        assert r == [cur] + MergeFrom(rest[0], rest[1..]);
        assert forall k :: 1 <= k < |r| ==> r[k] == MergeFrom(rest[0], rest[1..])[k - 1];
      }
    }
  }

  /** A block that starts no later than every block of a sorted sequence
      can go in front of it. */
  lemma ConsSorted(b: Block, bs: seq<Block>)
    requires SortedByStart(bs)
    requires forall x :: x in bs ==> b.start <= x.start
    ensures SortedByStart([b] + bs)
  {
    var w := [b] + bs;
    forall i, j | 0 <= i < j < |w| ensures w[i].start <= w[j].start {
      assert w[j] == bs[j - 1];
      if i > 0 { assert w[i] == bs[i - 1]; }
    }
  }

  /** Merging a sorted list keeps the ranges sorted by start. */
  lemma {:induction false} MergeSorted(cur: Block, rest: seq<Block>)
    requires SortedByStart([cur] + rest)
    ensures SortedByStart(MergeFrom(cur, rest))
    decreases |rest|
  {
    if rest != [] {
      SortedUncons(cur, rest);
      if rest[0].start == cur.end {
        var grown := Block(cur.start, rest[0].end);
        ConsSorted(grown, rest[1..]);
        MergeSorted(grown, rest[1..]);
      } else {
        MergeSorted(rest[0], rest[1..]);
        MergeLowerBound(rest[0], rest[1..], cur.start);
        ConsSorted(cur, MergeFrom(rest[0], rest[1..]));
      }
    }
  }

  /** Taking the first two blocks off a sorted sequence. */
  lemma SortedUncons(cur: Block, rest: seq<Block>)
    requires rest != [] && SortedByStart([cur] + rest)
    ensures SortedByStart(rest[1..]) && SortedByStart([rest[0]] + rest[1..])
    ensures cur.start <= rest[0].start
    ensures forall x :: x in rest[1..] ==> cur.start <= x.start
  {
    var whole := [cur] + rest;
    assert whole[0] == cur && whole[1..] == rest;
    SortedTail(whole);
    SortedTail(rest);
    assert [rest[0]] + rest[1..] == rest;
    assert rest[0] in rest;
    forall x | x in rest[1..] ensures cur.start <= x.start {
      assert x in rest;
    }
  }

  /** A bound below every start of the input bounds every merged start. */
  lemma {:induction false} MergeLowerBound(cur: Block, rest: seq<Block>, lo: int)
    requires lo <= cur.start
    requires forall x :: x in rest ==> lo <= x.start
    ensures forall x :: x in MergeFrom(cur, rest) ==> lo <= x.start
    decreases |rest|
  {
    if rest != [] {
      assert rest[0] in rest;
      assert forall x :: x in rest[1..] ==> x in rest;
      if rest[0].start == cur.end {
        MergeLowerBound(Block(cur.start, rest[0].end), rest[1..], lo);
      } else {
        MergeLowerBound(rest[0], rest[1..], lo);
      }
    }
  }

  /** `condense_hour_blocks` on minutes: the blocks sorted by start and then
      merged. There is at least one range for a non-empty input and never
      more ranges than blocks; the ranges are sorted by start, no range ends
      where the next one starts, and every range starts at some block's start
      and ends at some block's end. */
  function CondenseBlocks(bs: seq<Block>): (r: seq<Block>)
    ensures bs == [] <==> r == []
    ensures |r| <= |bs|
    ensures SortedByStart(r)
    ensures NonAdjacent(r)
    ensures forall k :: 0 <= k < |r| ==> r[k].start in Starts(bs) && r[k].end in Ends(bs)
  {
    var sorted := SortByStart(bs);
    if sorted == [] then []
    else
      assert sorted == [sorted[0]] + sorted[1..];
      MultisetSameEndpoints(sorted, bs);
      MergeEndpoints(sorted[0], sorted[1..]);
      MergeSorted(sorted[0], sorted[1..]);
      MergeFrom(sorted[0], sorted[1..])
  }

  /** Two sequences holding the same blocks have the same starts and ends. */
  lemma MultisetSameEndpoints(xs: seq<Block>, ys: seq<Block>)
    requires multiset(xs) == multiset(ys)
    ensures Starts(xs) == Starts(ys) && Ends(xs) == Ends(ys)
  {
    forall x | x in Starts(xs) ensures x in Starts(ys) {
      var i :| 0 <= i < |xs| && xs[i].start == x;
      assert xs[i] in multiset(ys);
      var j :| 0 <= j < |ys| && ys[j] == xs[i];
    }
    forall x | x in Starts(ys) ensures x in Starts(xs) {
      var i :| 0 <= i < |ys| && ys[i].start == x;
      assert ys[i] in multiset(xs);
      var j :| 0 <= j < |xs| && xs[j] == ys[i];
    }
    forall x | x in Ends(xs) ensures x in Ends(ys) {
      var i :| 0 <= i < |xs| && xs[i].end == x;
      assert xs[i] in multiset(ys);
      var j :| 0 <= j < |ys| && ys[j] == xs[i];
    }
    forall x | x in Ends(ys) ensures x in Ends(xs) {
      var i :| 0 <= i < |ys| && ys[i].end == x;
      assert ys[i] in multiset(xs);
      var j :| 0 <= j < |xs| && xs[j] == ys[i];
    }
  }

  /** `condense_hour_blocks`: no labels give no ranges; otherwise every label
      is parsed (any malformed one aborts the whole call), the blocks are
      condensed, and each range is rendered back to a label. */
  function CondenseHourBlocks(labels: seq<string>): (r: Result<seq<string>>)
    ensures labels == [] ==> r == Ok([])
    ensures r.Ok? <==> forall i :: 0 <= i < |labels| ==> ParseBlock(labels[i]).Ok?
    ensures r.Ok? && labels != [] ==> 1 <= |r.value| <= |labels|
  {
    if labels == [] then Ok([])
    else
      var blocks :- ParseBlocks(labels);
      Ok(RenderAll(CondenseBlocks(blocks)))
  }

  /** Each block rendered to its label, in order. */
  function RenderAll(bs: seq<Block>): seq<string> {
    seq(|bs|, k requires 0 <= k < |bs| => RenderBlock(bs[k]))
  }
  /** Minute `t` lies in some block of `bs`, taken as [start, end). */
  predicate Covers(bs: seq<Block>, t: int) {
    bs != [] && ((bs[0].start <= t < bs[0].end) || Covers(bs[1..], t))
  }

  /** Every block ends no earlier than it starts. */
  predicate WellFormed(bs: seq<Block>) {
    forall i :: 0 <= i < |bs| ==> bs[i].start <= bs[i].end
  }

  lemma {:induction false} InsertCovers(b: Block, bs: seq<Block>, t: int)
    ensures Covers(Insert(b, bs), t) <==> (b.start <= t < b.end) || Covers(bs, t)
    decreases |bs|
  {
    if bs == [] || b.start <= bs[0].start {
      assert ([b] + bs)[1..] == bs;
    } else {
      var tail := Insert(b, bs[1..]);
      assert ([bs[0]] + tail)[1..] == tail;
      InsertCovers(b, bs[1..], t);
    }
  }

  lemma {:induction false} SortCovers(bs: seq<Block>, t: int)
    ensures Covers(SortByStart(bs), t) <==> Covers(bs, t)
    decreases |bs|
  {
    if bs != [] {
      SortCovers(bs[1..], t);
      InsertCovers(bs[0], SortByStart(bs[1..]), t);
    }
  }

  /** Merging never gains or loses a minute: gluing a range [s, e) to a block
      [e, f) covers exactly [s, f). */
  lemma {:induction false} MergeCovers(cur: Block, rest: seq<Block>, t: int)
    requires cur.start <= cur.end && WellFormed(rest)
    ensures Covers(MergeFrom(cur, rest), t) <==> (cur.start <= t < cur.end) || Covers(rest, t)
    decreases |rest|
  {
    if rest == [] {
      assert [cur][1..] == [];
    } else if rest[0].start == cur.end {
      var grown := Block(cur.start, rest[0].end);
      MergeCovers(grown, rest[1..], t);
    } else {
      var tail := MergeFrom(rest[0], rest[1..]);
      assert ([cur] + tail)[1..] == tail;
      MergeCovers(rest[0], rest[1..], t);
    }
  }

  /** Condensing covers exactly the minutes the blocks covered. */
  lemma CondenseCovers(bs: seq<Block>)
    requires WellFormed(bs)
    ensures forall t :: Covers(CondenseBlocks(bs), t) <==> Covers(bs, t)
  {
    var sorted := SortByStart(bs);
    forall t ensures Covers(CondenseBlocks(bs), t) <==> Covers(bs, t) {
      SortCovers(bs, t);
      if sorted != [] {
        assert WellFormed(sorted) by {
          forall i | 0 <= i < |sorted| ensures sorted[i].start <= sorted[i].end {
            assert sorted[i] in multiset(bs);
          }
        }
        MergeCovers(sorted[0], sorted[1..], t);
        assert sorted == [sorted[0]] + sorted[1..];
      }
    }
  }

  /** Sorting what is already sorted changes nothing. */
  lemma {:induction false} SortSorted(bs: seq<Block>)
    requires SortedByStart(bs)
    ensures SortByStart(bs) == bs
    decreases |bs|
  {
    if bs != [] {
      SortSorted(bs[1..]);
      assert bs == [bs[0]] + bs[1..];
    }
  }

  /** Merging ranges that never touch changes nothing. */
  lemma {:induction false} MergeNonAdjacent(bs: seq<Block>)
    requires bs != [] && NonAdjacent(bs)
    ensures MergeFrom(bs[0], bs[1..]) == bs
    decreases |bs|
  {
    if |bs| > 1 {
      var rest := bs[1..];
      assert rest[0] == bs[1];
      assert NonAdjacent(rest) by {
        forall i | 0 <= i < |rest| - 1 ensures rest[i].end != rest[i + 1].start {
          assert rest[i] == bs[i + 1] && rest[i + 1] == bs[i + 2];
        }
      }
      MergeNonAdjacent(rest);
      assert bs == [bs[0]] + rest;
    } else {
      assert bs == [bs[0]];
    }
  }

  /** Condensing twice is condensing once. */
  lemma CondenseIdempotent(bs: seq<Block>)
    ensures CondenseBlocks(CondenseBlocks(bs)) == CondenseBlocks(bs)
  {
    var r := CondenseBlocks(bs);
    SortSorted(r);
    if r != [] {
      assert r == [r[0]] + r[1..];
      MergeNonAdjacent(r);
    }
  }

  lemma {:induction false} WithStartAfter(bs: seq<Block>, k: int)
    requires forall i :: 0 <= i < |bs| ==> k < bs[i].start
    ensures WithStart(bs, k) == []
    decreases |bs|
  {
    if bs != [] {
      WithStartAfter(bs[1..], k);
    }
  }

  /** A sorted sequence is determined by its blocks of each start, taken in
      order. */
  lemma {:induction false} SortedDeterminedByStarts(x: seq<Block>, y: seq<Block>)
    requires SortedByStart(x) && SortedByStart(y)
    requires forall k :: WithStart(x, k) == WithStart(y, k)
    ensures x == y
    decreases |x| + |y|
  {
    assert x != [] ==> WithStart(x, x[0].start) != [];
    assert y != [] ==> WithStart(y, y[0].start) != [];
    if x == [] && y == [] {
    } else if x == [] || y == [] {
      assert false;
    } else if x[0].start < y[0].start {
      WithStartAfter(y, x[0].start);
      assert false;
    } else if y[0].start < x[0].start {
      WithStartAfter(x, y[0].start);
      assert false;
    } else {
      HeadsAgree(x, y);
      SortedTail(x);
      SortedTail(y);
      SortedDeterminedByStarts(x[1..], y[1..]);
      assert x == [x[0]] + x[1..] && y == [y[0]] + y[1..];
    }
  }

  /** Two sequences with the same blocks of each start and the same first
      start have the same first block, and so do their tails. */
  lemma HeadsAgree(x: seq<Block>, y: seq<Block>)
    requires x != [] && y != [] && x[0].start == y[0].start
    requires forall k :: WithStart(x, k) == WithStart(y, k)
    ensures x[0] == y[0]
    ensures forall k :: WithStart(x[1..], k) == WithStart(y[1..], k)
  {
    var k := x[0].start;
    assert WithStart(x, k) == [x[0]] + WithStart(x[1..], k);
    assert WithStart(y, k) == [y[0]] + WithStart(y[1..], k);
    assert WithStart(x, k)[0] == x[0] && WithStart(y, k)[0] == y[0];
    forall k' ensures WithStart(x[1..], k') == WithStart(y[1..], k') {
      if k' == k {
        assert WithStart(x[1..], k) == WithStart(x, k)[1..];
        assert WithStart(y[1..], k) == WithStart(y, k)[1..];
      } else {
        assert WithStart(x[1..], k') == WithStart(x, k');
        assert WithStart(y[1..], k') == WithStart(y, k');
      }
    }
  }

  /** The ranges depend only on which blocks there are of each start and, for
      blocks sharing a start, on their relative order. */
  lemma CondenseStable(p: seq<Block>, q: seq<Block>)
    requires forall k :: WithStart(p, k) == WithStart(q, k)
    ensures CondenseBlocks(p) == CondenseBlocks(q)
  {
    SortedDeterminedByStarts(SortByStart(p), SortByStart(q));
  }

  lemma {:induction false} WithStartMembers(bs: seq<Block>, k: int)
    ensures forall x :: x in WithStart(bs, k) <==> x in bs && x.start == k
    decreases |bs|
  {
    if bs != [] {
      WithStartMembers(bs[1..], k);
      assert bs == [bs[0]] + bs[1..];
    }
  }

  lemma {:induction false} WithStartDistinct(bs: seq<Block>, k: int)
    requires DistinctStarts(bs)
    ensures |WithStart(bs, k)| <= 1
    decreases |bs|
  {
    if bs != [] {
      WithStartDistinct(bs[1..], k);
      if bs[0].start == k {
        WithStartAfterNone(bs[1..], k);
      }
    }
  }

  lemma {:induction false} WithStartAfterNone(bs: seq<Block>, k: int)
    requires forall i :: 0 <= i < |bs| ==> bs[i].start != k
    ensures WithStart(bs, k) == []
    decreases |bs|
  {
    if bs != [] {
      WithStartAfterNone(bs[1..], k);
    }
  }

  /** When no two blocks share a start, the order the blocks come in does not
      matter at all. */
  lemma CondenseOrderIndependent(p: seq<Block>, q: seq<Block>)
    requires DistinctStarts(p) && DistinctStarts(q)
    requires multiset(p) == multiset(q)
    ensures CondenseBlocks(p) == CondenseBlocks(q)
  {
    forall k ensures WithStart(p, k) == WithStart(q, k) {
      WithStartMembers(p, k);
      WithStartMembers(q, k);
      WithStartDistinct(p, k);
      WithStartDistinct(q, k);
      forall x ensures x in p <==> x in q {
        assert x in p <==> x in multiset(p);
        assert x in q <==> x in multiset(q);
      }
      var wp := WithStart(p, k);
      var wq := WithStart(q, k);
      assert |wp| == 0 || wp[0] in wq;
      assert |wq| == 0 || wq[0] in wp;
      if |wp| == 1 {
        assert wp == [wp[0]] && wq == [wq[0]];
      }
    }
    CondenseStable(p, q);
  }

  /** Sequences related pointwise by `f` to sequences with equal multisets
      have equal multisets too. */
  lemma {:induction false} MultisetPointwise<A, B>(x: seq<A>, y: seq<B>, x2: seq<A>, y2: seq<B>, f: A -> B)
    requires |x| == |y| && |x2| == |y2|
    requires forall k :: 0 <= k < |x| ==> y[k] == f(x[k])
    requires forall k :: 0 <= k < |x2| ==> y2[k] == f(x2[k])
    requires multiset(x) == multiset(x2)
    ensures multiset(y) == multiset(y2)
    decreases |x|
  {
    if x == [] {
      assert |multiset(x2)| == 0;
    } else {
      assert x[0] in multiset(x2);
      var j :| 0 <= j < |x2| && x2[j] == x[0];
      var x2', y2' := x2[..j] + x2[j + 1..], y2[..j] + y2[j + 1..];
      DropMatched(x, x2, j, x2');
      PointwiseRemove(x2, y2, j, f, x2', y2');
      MultisetPointwise(x[1..], y[1..], x2', y2', f);
      DropMatched(y, y2, j, y2');
    }
  }

  /** Two sequences whose first and `j`-th elements agree have equal
      multisets exactly when they do once those elements are dropped. */
  lemma DropMatched<T>(x: seq<T>, x2: seq<T>, j: nat, x2': seq<T>)
    requires x != [] && j < |x2| && x[0] == x2[j]
    requires x2' == x2[..j] + x2[j + 1..]
    ensures multiset(x) == multiset(x2) <==> multiset(x[1..]) == multiset(x2')
  {
    RemoveAt(x, 0);
    RemoveAt(x2, j);
    assert x[..0] + x[1..] == x[1..];
    if multiset(x) == multiset(x2) {
      CancelOne(multiset(x[1..]), multiset(x2'), x[0]);
    }
  }

  /** A multiset equation survives cancelling one common element. */
  lemma CancelOne<T>(m1: multiset<T>, m2: multiset<T>, a: T)
    requires m1 + multiset{a} == m2 + multiset{a}
    ensures m1 == m2
  {
    assert m1 == (m1 + multiset{a}) - multiset{a};
    assert m2 == (m2 + multiset{a}) - multiset{a};
  }

  /** Taking out the same place of two pointwise related sequences keeps
      them related. */
  lemma PointwiseRemove<A, B>(x: seq<A>, y: seq<B>, j: nat, f: A -> B, x': seq<A>, y': seq<B>)
    requires |x| == |y| && j < |x|
    requires forall k :: 0 <= k < |x| ==> y[k] == f(x[k])
    requires x' == x[..j] + x[j + 1..] && y' == y[..j] + y[j + 1..]
    ensures |x'| == |y'|
    ensures forall k :: 0 <= k < |x'| ==> y'[k] == f(x'[k])
  {
    forall k | 0 <= k < |x'| ensures y'[k] == f(x'[k]) {
      if k >= j {
        assert x'[k] == x[k + 1] && y'[k] == y[k + 1];
      }
    }
  }

  /** Taking out the element at `j` takes one copy of it out of the
      multiset. */
  lemma RemoveAt<T>(xs: seq<T>, j: nat)
    requires j < |xs|
    ensures multiset(xs) == multiset(xs[..j] + xs[j + 1..]) + multiset{xs[j]}
  {
    assert xs == xs[..j] + [xs[j]] + xs[j + 1..];
  }

  /** An element at two places is counted at least twice. */
  lemma CountedTwice<T>(xs: seq<T>, i: nat, j: nat)
    requires i < j < |xs| && xs[i] == xs[j]
    ensures multiset(xs)[xs[i]] >= 2
  {
    assert xs == xs[..i] + [xs[i]] + xs[i + 1..j] + [xs[j]] + xs[j + 1..];
  }

  /** An element counted at least twice sits at two places. */
  lemma TwoPlaces<T>(xs: seq<T>, x: T) returns (i: nat, j: nat)
    requires multiset(xs)[x] >= 2
    ensures i < j < |xs| && xs[i] == x && xs[j] == x
  {
    assert x in multiset(xs);
    var k :| 0 <= k < |xs| && xs[k] == x;
    var rest := xs[..k] + xs[k + 1..];
    assert xs == xs[..k] + [x] + xs[k + 1..];
    assert x in multiset(rest);
    var l :| 0 <= l < |rest| && rest[l] == x;
    if l < k {
      i, j := l, k;
    } else {
      assert xs[l + 1] == rest[l];
      i, j := k, l + 1;
    }
  }

  /** Reordering blocks keeps their starts distinct. */
  lemma PermutedDistinctStarts(p: seq<Block>, q: seq<Block>)
    requires DistinctStarts(p) && multiset(p) == multiset(q)
    ensures DistinctStarts(q)
  {
    forall i, j | 0 <= i < j < |q| ensures q[i].start != q[j].start {
      if q[i] == q[j] {
        CountedTwice(q, i, j);
        var i', j' := TwoPlaces(p, q[i]);
      } else {
        assert q[i] in multiset(p) && q[j] in multiset(p);
        var i' :| 0 <= i' < |p| && p[i'] == q[i];
        var j' :| 0 <= j' < |p| && p[j'] == q[j];
        assert i' != j';
        if j' < i' {
          assert p[j'].start != p[i'].start;
        }
      }
    }
  }

  /** Two blocks share no minute, each taken as [start, end). */
  predicate Apart(a: Block, b: Block) {
    a.end <= b.start || b.end <= a.start
  }

  /** Every block holds at least one minute and no two blocks share one. */
  predicate PositiveDisjoint(bs: seq<Block>) {
    && (forall i :: 0 <= i < |bs| ==> bs[i].start < bs[i].end)
    && (forall i, j :: 0 <= i < j < |bs| ==> Apart(bs[i], bs[j]))
  }

  /** Each block ends no later than every later block starts. */
  predicate Chained(bs: seq<Block>) {
    forall i, j :: 0 <= i < j < |bs| ==> bs[i].end <= bs[j].start
  }

  /** Consecutive ranges leave a gap: each ends strictly before the next
      one starts, so no two overlap or could be merged. */
  predicate Separated(bs: seq<Block>) {
    forall k :: 0 <= k < |bs| - 1 ==> bs[k].end < bs[k + 1].start
  }

  /** Reordering blocks keeps them non-empty and pairwise disjoint. */
  lemma PermutedPositiveDisjoint(p: seq<Block>, q: seq<Block>)
    requires PositiveDisjoint(p) && multiset(p) == multiset(q)
    ensures PositiveDisjoint(q)
  {
    forall i | 0 <= i < |q| ensures q[i].start < q[i].end {
      assert q[i] in multiset(p);
      var i' :| 0 <= i' < |p| && p[i'] == q[i];
    }
    forall i, j | 0 <= i < j < |q| ensures Apart(q[i], q[j]) {
      if q[i] == q[j] {
        CountedTwice(q, i, j);
        var i', j' := TwoPlaces(p, q[i]);
        assert Apart(p[i'], p[j']);
      } else {
        assert q[i] in multiset(p) && q[j] in multiset(p);
        var i' :| 0 <= i' < |p| && p[i'] == q[i];
        var j' :| 0 <= j' < |p| && p[j'] == q[j];
        assert i' != j';
        if j' < i' {
          assert Apart(p[j'], p[i']);
        }
      }
    }
  }

  /** Sorted by start, disjoint non-empty blocks follow one another. */
  lemma SortedChained(bs: seq<Block>)
    requires SortedByStart(bs) && PositiveDisjoint(bs)
    ensures Chained(bs)
  {
    forall i, j | 0 <= i < j < |bs| ensures bs[i].end <= bs[j].start {
      assert Apart(bs[i], bs[j]);
    }
  }

  /** A chain without its first block is a chain that the first block
      precedes. */
  lemma ChainedSplit(bs: seq<Block>)
    requires bs != [] && Chained(bs)
    ensures Chained(bs[1..])
    ensures forall x :: x in bs[1..] ==> bs[0].end <= x.start
  {
    assert forall i :: 0 <= i < |bs| - 1 ==> bs[1..][i] == bs[i + 1];
  }

  /** Merging a chain that the running range precedes leaves a gap between
      consecutive ranges. */
  lemma {:induction false} MergeSeparated(cur: Block, rest: seq<Block>)
    requires Chained(rest)
    requires forall x :: x in rest ==> cur.end <= x.start
    ensures Separated(MergeFrom(cur, rest))
    decreases |rest|
  {
    if rest != [] {
      assert rest[0] in rest;
      ChainedSplit(rest);
      if rest[0].start == cur.end {
        MergeSeparated(Block(cur.start, rest[0].end), rest[1..]);
      } else {
        var tail := MergeFrom(rest[0], rest[1..]);
        MergeSeparated(rest[0], rest[1..]);
        var r := [cur] + tail;
        assert r == MergeFrom(cur, rest);
        assert forall k :: 1 <= k < |r| ==> r[k] == tail[k - 1];
      }
    }
  }

  /** Disjoint non-empty blocks condense to ranges that neither overlap nor
      touch: each range is maximal. */
  lemma CondenseSeparated(bs: seq<Block>)
    requires PositiveDisjoint(bs)
    ensures Separated(CondenseBlocks(bs))
  {
    var sorted := SortByStart(bs);
    if sorted != [] {
      PermutedPositiveDisjoint(bs, sorted);
      SortedChained(sorted);
      ChainedSplit(sorted);
      MergeSeparated(sorted[0], sorted[1..]);
    }
  }

  /** The block a label names, or an arbitrary one when it names none. */
  function BlockOf(blockLabel: string): Block {
    match ParseBlock(blockLabel)
    case Ok(b) => b
    case Err(_) => Block(0, 0)
  }

  /** Two listings of the same labels, whose blocks start at distinct
      minutes, condense alike: the order in which the labels come does not
      matter. */
  lemma CondenseHourBlocksOrderIndependent(p: seq<string>, q: seq<string>)
    requires multiset(p) == multiset(q)
    requires ParseBlocks(p).Ok? && DistinctStarts(ParseBlocks(p).value)
    ensures CondenseHourBlocks(p) == CondenseHourBlocks(q)
  {
    forall k | 0 <= k < |q| ensures ParseBlock(q[k]).Ok? {
      assert q[k] in multiset(p);
      var i :| 0 <= i < |p| && p[i] == q[k];
    }
    var bp, bq := ParseBlocks(p).value, ParseBlocks(q).value;
    MultisetPointwise(p, bp, q, bq, BlockOf);
    PermutedDistinctStarts(bp, bq);
    CondenseOrderIndependent(bp, bq);
    if p == [] {
      assert |multiset(q)| == 0;
    } else {
      assert q != [] by {
        assert p[0] in multiset(q);
      }
    }
  }

  /** Every block of `bs` is one the label format reads back. */
  predicate AllRenderable(bs: seq<Block>) {
    forall i :: 0 <= i < |bs| ==> Renderable(bs[i])
  }

  /** Reading back rendered blocks gives the blocks. */
  lemma ParseRenderAll(bs: seq<Block>)
    requires AllRenderable(bs)
    ensures ParseBlocks(RenderAll(bs)) == Ok(bs)
  {
    var ls := RenderAll(bs);
    forall i | 0 <= i < |bs| ensures ParseBlock(ls[i]) == Ok(bs[i]) {
      ParseRenderBlock(bs[i]);
    }
    var r := ParseBlocks(ls);
    assert r.value == bs;
  }

  /** Labels whose blocks all have renderable boundaries. */
  predicate ReadableLabels(labels: seq<string>) {
    forall i :: 0 <= i < |labels| ==> ParseBlock(labels[i]).Ok? && Renderable(ParseBlock(labels[i]).value)
  }

  /** Condensed ranges of renderable blocks are renderable. */
  lemma CondenseRenderable(bs: seq<Block>)
    requires AllRenderable(bs)
    ensures AllRenderable(CondenseBlocks(bs))
  {
    var merged := CondenseBlocks(bs);
    forall k | 0 <= k < |merged| ensures Renderable(merged[k]) {
      var i :| 0 <= i < |bs| && bs[i].start == merged[k].start;
      var j :| 0 <= j < |bs| && bs[j].end == merged[k].end;
      assert Renderable(bs[i]) && Renderable(bs[j]);
    }
  }

  lemma ReadableParsed(labels: seq<string>)
    requires ReadableLabels(labels)
    ensures ParseBlocks(labels).Ok? && AllRenderable(ParseBlocks(labels).value)
  {
    var bs := ParseBlocks(labels).value;
    forall i | 0 <= i < |bs| ensures Renderable(bs[i]) {
      assert ParseBlock(labels[i]) == Ok(bs[i]);
    }
  }

  /** The condensed labels read back as the condensed blocks: each output
      label names a range that starts at some input block's start and ends at
      some input block's end, and the ranges are sorted and never touch. */
  lemma CondensedLabelsReadBack(labels: seq<string>)
    requires ReadableLabels(labels)
    ensures ParseBlocks(labels).Ok? && CondenseHourBlocks(labels).Ok?
    ensures ParseBlocks(CondenseHourBlocks(labels).value) == Ok(CondenseBlocks(ParseBlocks(labels).value))
  {
    ReadableParsed(labels);
    var merged := CondenseBlocks(ParseBlocks(labels).value);
    CondenseRenderable(ParseBlocks(labels).value);
    ParseRenderAll(merged);
    if labels != [] {
      assert CondenseHourBlocks(labels) == Ok(RenderAll(merged));
    }
  }

  /** Condensing already condensed labels gives them back unchanged. */
  lemma CondenseHourBlocksIdempotent(labels: seq<string>)
    requires ReadableLabels(labels)
    ensures CondenseHourBlocks(labels).Ok?
    ensures CondenseHourBlocks(CondenseHourBlocks(labels).value) == CondenseHourBlocks(labels)
  {
    CondensedLabelsReadBack(labels);
    var out := CondenseHourBlocks(labels).value;
    CondenseIdempotent(ParseBlocks(labels).value);
    if out != [] {
      assert CondenseHourBlocks(out) == Ok(RenderAll(CondenseBlocks(ParseBlocks(out).value)));
    }
  }

  /** The condensed labels cover exactly the minutes the input labels cover,
      for blocks that do not run backwards. */
  lemma CondenseHourBlocksCovers(labels: seq<string>, t: int)
    requires ReadableLabels(labels)
    requires WellFormed(ParseBlocks(labels).value)
    ensures CondenseHourBlocks(labels).Ok?
    ensures ParseBlocks(CondenseHourBlocks(labels).value).Ok?
    ensures Covers(ParseBlocks(CondenseHourBlocks(labels).value).value, t) <==> Covers(ParseBlocks(labels).value, t)
  {
    CondensedLabelsReadBack(labels);
    CondenseCovers(ParseBlocks(labels).value);
  }

  /** Condensing an enumeration of a set of labels succeeds exactly when
      every label of the set is well formed. */
  lemma CondenseEnumerated(labels: seq<string>, s: set<string>)
    requires forall x :: x in labels <==> x in s
    ensures CondenseHourBlocks(labels).Ok? <==> forall blk :: blk in s ==> ParseBlock(blk).Ok?
    ensures CondenseHourBlocks(labels).Ok? && s != {} ==> CondenseHourBlocks(labels).value != []
  {
    if forall blk :: blk in s ==> ParseBlock(blk).Ok? {
      assert forall i :: 0 <= i < |labels| ==> labels[i] in s;
    }
    if CondenseHourBlocks(labels).Ok? {
      forall blk | blk in s ensures ParseBlock(blk).Ok? {
        var i :| 0 <= i < |labels| && labels[i] == blk;
      }
    }
    if s != {} {
      var x :| x in s;
      assert labels != [];
    }
  }
}

=== FILE: cells.dfy ===
/** One availability cell of the form (friend-roulette-overlaps.py,
    parse_availability): the comma-separated days a person ticked for one
    hour block, as Google Forms writes them ("Mondays, Wednesdays"). */
module Cells {
  import opened Text

  /** One item of a cell as a day name: surrounding whitespace removed, then
      every trailing 's', so that "Mondays" and " Monday" both become
      "Monday". */
  function NormalizeDay(item: string): (d: string)
    ensures d <= Strip(item)
    ensures forall i :: |d| <= i < |Strip(item)| ==> Strip(item)[i] == 's'
    ensures d == [] || (!IsSpace(d[0]) && d[|d| - 1] != 's')
    ensures forall c :: Avoids(item, c) ==> Avoids(d, c)
  {
    RStripChar(Strip(item), 's')
  }

  /** `parse_availability`: a cell that is empty or all whitespace holds no
      days; any other cell is split on ',' and each item becomes a day name,
      duplicates collapsing in the set. No day name holds a comma or ends in
      's', and there are never more day names than items. */
  function ParseAvailability(cell: string): (days: set<string>)
    ensures days == {} <==> Strip(cell) == []
    ensures forall d :: d in days ==> Avoids(d, ',') && (d == [] || d[|d| - 1] != 's')
    ensures |days| <= |Split(cell, ",")|
  {
    if Strip(cell) == [] then {}
    else
      var items := Split(cell, ",");
      SplitChar(cell, ',');
      assert NormalizeDay(items[0]) in ItemDays(items);
      ImageSize(items, NormalizeDay);
      ItemDaysShape(items, ',');
      ItemDays(items)
  }

  /** A non-blank cell holds exactly the day names of its comma-separated
      items: each item stripped and its trailing 's' run removed, equal
      names collapsing. */
  lemma ParseAvailabilityItems(cell: string)
    requires Strip(cell) != []
    ensures forall d :: d in ParseAvailability(cell) <==> ItemNamed(Split(cell, ","), d)
  {
    var items := Split(cell, ",");
    var days := ParseAvailability(cell);
    assert days == Image(items, NormalizeDay);
    forall d ensures d in days <==> ItemNamed(items, d) {
      ImageMember(items, NormalizeDay, d);
    }
  }

  /** Some item of the cell normalises to the day name `d`. */
  predicate ItemNamed(items: seq<string>, d: string) {
    exists k :: 0 <= k < |items| && NormalizeDay(items[k]) == d
  }

  /** A value `f` takes on the items is the value of some item. */
  lemma ImageMember(items: seq<string>, f: string -> string, d: string)
    ensures d in Image(items, f) <==> exists k :: 0 <= k < |items| && f(items[k]) == d
  {
    if d in Image(items, f) {
      var k :| 0 <= k < |items| && f(items[k]) == d;
    }
  }

  /** The day names of the items of a cell. */
  function ItemDays(items: seq<string>): set<string> {
    Image(items, NormalizeDay)
  }

  /** Day names never end in 's' and avoid every character all the items
      avoid. */
  lemma ItemDaysShape(items: seq<string>, c: char)
    requires forall k :: 0 <= k < |items| ==> Avoids(items[k], c)
    ensures forall d :: d in ItemDays(items) ==> Avoids(d, c) && (d == [] || d[|d| - 1] != 's')
  {
    forall d | d in ItemDays(items) ensures Avoids(d, c) && (d == [] || d[|d| - 1] != 's') {
      var i :| 0 <= i < |items| && NormalizeDay(items[i]) == d;
    }
  }

  /** The values `f` takes on the items. */
  function Image(items: seq<string>, f: string -> string): set<string> {
    set i | 0 <= i < |items| :: f(items[i])
  }

  /** There are never more values than items. */
  lemma {:induction false} ImageSize(items: seq<string>, f: string -> string)
    ensures |Image(items, f)| <= |items|
    decreases |items|
  {
    if items != [] {
      ImageSize(items[1..], f);
      assert Image(items, f) == {f(items[0])} + Image(items[1..], f) by {
        forall d | d in Image(items, f) ensures d in {f(items[0])} + Image(items[1..], f) {
          var i :| 0 <= i < |items| && f(items[i]) == d;
          if i > 0 { assert items[1..][i - 1] == items[i]; }
        }
        forall d | d in Image(items[1..], f) ensures d in Image(items, f) {
          var i :| 0 <= i < |items[1..]| && f(items[1..][i]) == d;
          assert items[i + 1] == items[1..][i];
        }
      }
    }
  }

  /** A day name as the form offers it: non-empty, free of whitespace and
      commas, and not ending in 's'. */
  predicate DayName(d: string) {
    d != [] && NoSpace(d) && Avoids(d, ',') && d[|d| - 1] != 's'
  }

  const Weekdays: seq<string> :=
    ["Sunday", "Monday", "Tuesday", "Wednesday", "Thursday", "Friday", "Saturday"]

  lemma WeekdaysAreDayNames()
    ensures forall i :: 0 <= i < |Weekdays| ==> DayName(Weekdays[i])
  {
  }

  /** The item the form writes for a ticked day: the plural, preceded by a
      space unless it comes first. */
  function CellItem(d: string, first: bool): string {
    (if first then "" else " ") + d + "s"
  }

  /** The cell the form writes for the ticked days, e.g.
      "Mondays, Wednesdays". */
  function RenderCell(days: seq<string>): string {
    Join(CellItems(days), ",")
  }

  /** The items of the cell, one per ticked day. */
  function CellItems(days: seq<string>): seq<string> {
    seq(|days|, i requires 0 <= i < |days| => CellItem(days[i], i == 0))
  }

  /** Stripping a written item leaves the plural. */
  lemma StripItem(d: string, first: bool)
    requires DayName(d)
    ensures Strip(CellItem(d, first)) == d + "s"
  {
    var plural := d + "s";
    assert !IsSpace(plural[0]) && !IsSpace(plural[|plural| - 1]);
    StripUnchanged(plural);
    if !first {
      assert CellItem(d, first) == [' '] + plural;
      StripLeadingSpace(' ', plural);
    } else {
      assert CellItem(d, first) == plural;
    }
  }

  /** Removing the trailing 's' of a plural gives the day name back. */
  lemma SingularOfPlural(d: string)
    requires d != [] && d[|d| - 1] != 's'
    ensures RStripChar(d + "s", 's') == d
  {
    var plural := d + "s";
    assert plural[|plural| - 1] == 's';
    assert plural[..|plural| - 1] == d;
  }

  /** Each item the form writes reads back as its day name. */
  lemma NormalizeItem(d: string, first: bool)
    requires DayName(d)
    ensures NormalizeDay(CellItem(d, first)) == d
  {
    StripItem(d, first);
    SingularOfPlural(d);
  }

  /** The items of a written cell are recovered by splitting on ','. */
  lemma SplitRenderedCell(days: seq<string>)
    requires days != []
    requires forall i :: 0 <= i < |days| ==> DayName(days[i])
    ensures Split(RenderCell(days), ",") == CellItems(days)
  {
    var items := CellItems(days);
    forall k | 0 <= k < |items| ensures Avoids(items[k], ',') {
      assert items[k] == CellItem(days[k], k == 0);
    }
    SplitJoin(items, ",");
  }

  /** A written cell starts with the first day's initial, so it is not
      blank. */
  lemma RenderedCellNotBlank(days: seq<string>)
    requires days != [] && DayName(days[0])
    ensures Strip(RenderCell(days)) != []
  {
    var items := CellItems(days);
    assert items[0] == days[0] + "s";
    assert RenderCell(days)[0] == items[0][0];
  }

  /** Reading a cell the form wrote for a non-empty list of ticked days gives
      exactly the set of those days. */
  lemma ParseRenderedCell(days: seq<string>)
    requires days != []
    requires forall i :: 0 <= i < |days| ==> DayName(days[i])
    ensures ParseAvailability(RenderCell(days)) == set i | 0 <= i < |days| :: days[i]
  {
    var items := CellItems(days);
    SplitRenderedCell(days);
    RenderedCellNotBlank(days);
    assert ParseAvailability(RenderCell(days)) == ItemDays(items);
    forall i | 0 <= i < |days| ensures NormalizeDay(items[i]) == days[i] {
      NormalizeItem(days[i], i == 0);
    }
    ImagePointwise(items, NormalizeDay, days);
  }

  /** The values `f` takes on items that it maps one by one to `ys` are the
      elements of `ys`. */
  lemma ImagePointwise(items: seq<string>, f: string -> string, ys: seq<string>)
    requires |items| == |ys|
    requires forall i :: 0 <= i < |items| ==> f(items[i]) == ys[i]
    ensures Image(items, f) == set i | 0 <= i < |ys| :: ys[i]
  {
    var ys' := set i | 0 <= i < |ys| :: ys[i];
    forall d | d in ys' ensures d in Image(items, f) {
      var i :| 0 <= i < |ys| && ys[i] == d;
      assert f(items[i]) == d;
    }
  }
}

=== FILE: clock.dfy ===
/** The 12-hour clock codec: hour labels such as "7am" or "12pm" to minutes
    since midnight and back (friend-roulette-overlaps.py, hour_to_minutes and
    minutes_to_hour). */
module Clock {
  import opened Results
  import opened Text
  import opened Numerals

  /** `hour_to_minutes`: a label containing "am" anywhere is read as a
      morning hour with every "am" removed, "12am" being midnight; any other
      label is read as an afternoon hour with every "pm" removed, "12pm"
      being noon. `None` stands for the ValueError `int()` raises on what is
      left. The result is always a whole number of hours. */
  function HourToMinutes(hour: string): (r: Option<int>)
    ensures r.Some? ==> r.value % 60 == 0
  {
    var t := Strip(hour);
    var morning := Contains(t, "am");
    var h :- ParseInt(RemoveAll(t, if morning then "am" else "pm"));
    var minutes := DayHour(h, morning) * 60;
    WholeHours(DayHour(h, morning));
    Some(minutes)
  }

  /** A number of hours is a whole number of hours in minutes. */
  lemma WholeHours(hours: int)
    ensures (hours * 60) % 60 == 0 && (hours * 60) / 60 == hours
  {
  }

  /** The hour of the day that hour `h` of the morning or afternoon names:
      a clock hour from 1 to 12 lands in the named half of the day, at the
      same place on the clock face. */
  function DayHour(h: int, morning: bool): (r: int)
    ensures 1 <= h <= 12 ==> (if morning then 0 <= r < 12 else 12 <= r < 24)
    ensures 1 <= h <= 12 ==> r % 12 == h % 12
  {
    if morning then (if h == 12 then 0 else h)
    else (if h != 12 then h + 12 else h)
  }

  /** `minutes_to_hour`: the label of the hour in which `minutes` falls
      (Python's `//`, which for the divisor 60 is Dafny's `/`). Hours below
      twelve, negative ones included, are written with "am", the others with
      "pm"; the label never holds whitespace. */
  function MinutesToHour(minutes: int): (r: string)
    ensures |r| >= 3 && NoSpace(r)
    ensures r[|r| - 2..] == (if minutes / 60 < 12 then "am" else "pm")
  {
    var hour := minutes / 60;
    if hour == 0 then "12am"
    else if hour < 12 then IntToString(hour) + "am"
    else if hour == 12 then "12pm"
    else IntToString(hour - 12) + "pm"
  }

  /** A pattern occurs in any text that ends with it. */
  lemma {:induction false} ContainsSuffix(s: string, pat: string)
    ensures Contains(s + pat, pat)
    decreases |s|
  {
    if s != [] {
      assert (s + pat)[1..] == s[1..] + pat;
      ContainsSuffix(s[1..], pat);
    }
  }

  /** A rendered integer has no letter and no whitespace. */
  lemma IntToStringIsNumeral(i: int)
    ensures Avoids(IntToString(i), 'a') && Avoids(IntToString(i), 'p')
    ensures NoSpace(IntToString(i))
  {
    var s := IntToString(i);
    if i < 0 {
      assert forall k :: 1 <= k < |s| ==> s[k] == NatToString(-i)[k - 1];
    }
  }

  /** The steps of `HourToMinutes` once each intermediate value is known. */
  lemma ReadHour(t: string, digits: string, i: int, morning: bool)
    requires Strip(t) == t && Contains(t, "am") == morning
    requires RemoveAll(t, if morning then "am" else "pm") == digits
    requires ParseInt(digits) == Some(i)
    ensures HourToMinutes(t) == Some(DayHour(i, morning) * 60)
  {
  }

  /** Text free of whitespace followed by "am" or "pm" strips to itself. */
  lemma SuffixedStrips(x: string, suffix: string)
    requires NoSpace(x) && (suffix == "am" || suffix == "pm")
    ensures Strip(x + suffix) == x + suffix
  {
    StripUnchanged(x + suffix);
  }

  /** Removing every "am" (or "pm") from text followed by it gives back the
      text when the text has no 'a' (or 'p'). */
  lemma SuffixRemoved(x: string, suffix: string)
    requires suffix == "am" || suffix == "pm"
    requires Avoids(x, suffix[0])
    ensures RemoveAll(x + suffix, suffix) == x
  {
    RemoveAllSuffix(x, suffix);
  }

  /** Text without 'a' followed by "pm" does not contain "am". */
  lemma AfternoonNotMorning(x: string)
    requires Avoids(x, 'a')
    ensures !Contains(x + "pm", "am")
  {
    assert Avoids(x + "pm", 'a');
    AvoidsFirstNotContains(x + "pm", "am");
  }

  /** A numeral `x` of the integer `i` followed by "am" reads as hour `i` of
      the morning. */
  lemma MorningNumeral(x: string, i: int)
    requires NoSpace(x) && Avoids(x, 'a') && ParseInt(x) == Some(i)
    ensures HourToMinutes(x + "am") == Some(DayHour(i, true) * 60)
  {
    SuffixedStrips(x, "am");
    ContainsSuffix(x, "am");
    SuffixRemoved(x, "am");
    ReadHour(x + "am", x, i, true);
  }

  /** A numeral `x` of the integer `i` followed by "pm" reads as hour `i` of
      the afternoon. */
  lemma AfternoonNumeral(x: string, i: int)
    requires NoSpace(x) && Avoids(x, 'a') && Avoids(x, 'p') && ParseInt(x) == Some(i)
    ensures HourToMinutes(x + "pm") == Some(DayHour(i, false) * 60)
  {
    SuffixedStrips(x, "pm");
    AfternoonNotMorning(x);
    SuffixRemoved(x, "pm");
    ReadHour(x + "pm", x, i, false);
  }

  /** "<i>am" is the hour `i` of the morning, with 12 standing for midnight. */
  lemma AmHour(i: int)
    ensures HourToMinutes(IntToString(i) + "am") == Some((if i == 12 then 0 else i) * 60)
  {
    IntToStringIsNumeral(i);
    ParseIntOfIntToString(i);
    MorningNumeral(IntToString(i), i);
  }

  /** "<i>pm" is the hour `i` of the afternoon, with 12 standing for noon. */
  lemma PmHour(i: int)
    ensures HourToMinutes(IntToString(i) + "pm") == Some((if i == 12 then 12 else i + 12) * 60)
  {
    IntToStringIsNumeral(i);
    ParseIntOfIntToString(i);
    AfternoonNumeral(IntToString(i), i);
  }

  /** A bare numeral without "am" or "pm" takes the afternoon branch. */
  lemma BareNumeral(x: string, i: int)
    requires NoSpace(x) && Avoids(x, 'a') && Avoids(x, 'p') && x != [] && ParseInt(x) == Some(i)
    ensures HourToMinutes(x) == Some(DayHour(i, false) * 60)
  {
    StripUnchanged(x);
    AvoidsFirstNotContains(x, "am");
    AvoidsFirstNotContains(x, "pm");
    ReadHour(x, x, i, false);
  }

  /** A bare number reads as the same hour as that number followed by "pm". */
  lemma BareHourIsPm(i: int)
    ensures HourToMinutes(IntToString(i)) == HourToMinutes(IntToString(i) + "pm")
  {
    IntToStringIsNumeral(i);
    ParseIntOfIntToString(i);
    BareNumeral(IntToString(i), i);
    AfternoonNumeral(IntToString(i), i);
  }

  lemma TwelveIsRendered()
    ensures IntToString(12) == "12"
  {
    assert NatToString(1) == "1";
  }

  /** Every whole hour other than 1440 minutes reads back from its label;
      this includes hours outside one day, such as "-3am" or "13pm". */
  lemma MinutesRoundTrip(minutes: int)
    requires minutes % 60 == 0 && minutes != 1440
    ensures HourToMinutes(MinutesToHour(minutes)) == Some(minutes)
  {
    if minutes / 60 < 12 {
      MorningRoundTrip(minutes);
    } else {
      AfternoonRoundTrip(minutes);
    }
  }

  /** A morning hour, midnight and negative hours included, reads back from
      its label. */
  lemma MorningRoundTrip(minutes: int)
    requires minutes % 60 == 0 && minutes / 60 < 12
    ensures HourToMinutes(MinutesToHour(minutes)) == Some(minutes)
  {
    var hour := minutes / 60;
    assert minutes == hour * 60;
    var rendered := MinutesToHour(minutes);
    if hour == 0 {
      TwelveIsRendered();
      assert rendered == IntToString(12) + "am";
      AmHour(12);
    } else {
      assert rendered == IntToString(hour) + "am";
      AmHour(hour);
    }
  }

  /** An afternoon hour other than hour 24 reads back from its label. */
  lemma AfternoonRoundTrip(minutes: int)
    requires minutes % 60 == 0 && 12 <= minutes / 60 && minutes != 1440
    ensures HourToMinutes(MinutesToHour(minutes)) == Some(minutes)
  {
    var hour := minutes / 60;
    assert minutes == hour * 60;
    var rendered := MinutesToHour(minutes);
    if hour == 12 {
      TwelveIsRendered();
      assert rendered == IntToString(12) + "pm";
      PmHour(12);
    } else {
      assert hour != 24;
      assert rendered == IntToString(hour - 12) + "pm";
      PmHour(hour - 12);
      assert (hour - 12) + 12 == hour;
    }
  }

  /** The one whole hour that does not read back: 1440 minutes is written
      "12pm", which reads as noon. */
  lemma RoundTripFailsAtDayEnd()
    ensures MinutesToHour(1440) == "12pm"
    ensures HourToMinutes(MinutesToHour(1440)) == Some(720)
  {
    assert 1440 / 60 == 24;
    TwelveIsRendered();
    assert MinutesToHour(1440) == IntToString(12) + "pm" == "12pm";
    PmHour(12);
    assert 12 * 60 == 720;
  }

  datatype Meridiem = AM | PM

  /** The canonical label "<h>am" or "<h>pm" of a clock hour. */
  function Label(h: nat, m: Meridiem): string {
    NatToString(h) + (if m == AM then "am" else "pm")
  }

  /** The 24 canonical labels read as: "12am" is 0, "<h>am" is h hours,
      "12pm" is 720 and "<h>pm" is h + 12 hours; all within one day. */
  lemma LabelMinutes(h: nat, m: Meridiem)
    requires 1 <= h <= 12
    ensures m == AM ==> HourToMinutes(Label(h, m)) == Some(if h == 12 then 0 else h * 60)
    ensures m == PM ==> HourToMinutes(Label(h, m)) == Some(if h == 12 then 720 else (h + 12) * 60)
    ensures 0 <= HourToMinutes(Label(h, m)).value <= 1380
  {
    assert IntToString(h) == NatToString(h);
    if m == AM {
      AmHour(h);
    } else {
      PmHour(h);
    }
  }

  /** The minutes of a canonical label render as that label. */
  lemma RenderLabel(h: nat, m: Meridiem, minutes: int)
    requires 1 <= h <= 12
    requires m == AM ==> minutes == (if h == 12 then 0 else h * 60)
    requires m == PM ==> minutes == (if h == 12 then 720 else (h + 12) * 60)
    ensures MinutesToHour(minutes) == Label(h, m)
  {
    TwelveIsRendered();
    assert IntToString(h) == NatToString(h);
    if h == 12 {
      assert minutes / 60 == (if m == AM then 0 else 12);
    } else if m == AM {
      assert minutes / 60 == h;
    } else {
      assert minutes / 60 == h + 12;
    }
  }

  /** Each of the 24 canonical labels is what its own minutes render as. */
  lemma LabelRoundTrip(h: nat, m: Meridiem)
    requires 1 <= h <= 12
    ensures HourToMinutes(Label(h, m)).Some?
    ensures MinutesToHour(HourToMinutes(Label(h, m)).value) == Label(h, m)
  {
    LabelMinutes(h, m);
    RenderLabel(h, m, HourToMinutes(Label(h, m)).value);
  }
}

=== FILE: lex.dfy ===
/** Python's ordering of strings (code point by code point, a proper prefix
    first) and the enumeration of a finite set of strings in that order, as
    `sorted()` gives it. */
module Lex {

  /** `a <= b` on Python strings. */
  predicate LessEq(a: string, b: string)
    decreases |a|
  {
    a == [] || (b != [] && (a[0] < b[0] || (a[0] == b[0] && LessEq(a[1..], b[1..]))))
  }

  lemma {:induction false} LessEqReflexive(a: string)
    ensures LessEq(a, a)
    decreases |a|
  {
    if a != [] {
      LessEqReflexive(a[1..]);
    }
  }

  lemma {:induction false} LessEqTotal(a: string, b: string)
    ensures LessEq(a, b) || LessEq(b, a)
    decreases |a|
  {
    if a != [] && b != [] && a[0] == b[0] {
      LessEqTotal(a[1..], b[1..]);
    }
  }

  lemma {:induction false} LessEqAntisymmetric(a: string, b: string)
    requires LessEq(a, b) && LessEq(b, a)
    ensures a == b
    decreases |a|
  {
    if a != [] {
      LessEqAntisymmetric(a[1..], b[1..]);
      assert a == [a[0]] + a[1..];
      assert b == [b[0]] + b[1..];
    }
  }

  lemma {:induction false} LessEqTransitive(a: string, b: string, c: string)
    requires LessEq(a, b) && LessEq(b, c)
    ensures LessEq(a, c)
    decreases |a|
  {
    if a != [] && b != [] && c != [] && a[0] == b[0] == c[0] {
      LessEqTransitive(a[1..], b[1..], c[1..]);
    }
  }

  /** `m` is the least element of `s`. */
  predicate IsLeast(m: string, s: set<string>) {
    m in s && forall x :: x in s ==> LessEq(m, x)
  }

  /** Every non-empty finite set of strings has a least element. */
  lemma {:induction false} LeastExists(s: set<string>)
    requires s != {}
    ensures exists m :: IsLeast(m, s)
    decreases |s|
  {
    var x :| x in s;
    LessEqReflexive(x);
    if s == {x} {
      assert IsLeast(x, s);
    } else {
      LeastExists(s - {x});
      var m :| m in s - {x} && IsLeast(m, s - {x});
      LessEqTotal(x, m);
      if LessEq(m, x) {
        assert IsLeast(m, s);
      } else {
        forall y | y in s ensures LessEq(x, y) {
          if y != x {
            LessEqTransitive(x, m, y);
          }
        }
        assert IsLeast(x, s);
      }
    }
  }

  /** A set has at most one least element. */
  lemma LeastUnique(s: set<string>)
    ensures forall m, m' :: IsLeast(m, s) && IsLeast(m', s) ==> m == m'
  {
    forall m, m' | IsLeast(m, s) && IsLeast(m', s) ensures m == m' {
      LessEqAntisymmetric(m, m');
    }
  }

  /** Strictly increasing in Python's string order. */
  predicate StrictlySorted(r: seq<string>) {
    forall i, j :: 0 <= i < j < |r| ==> LessEq(r[i], r[j]) && r[i] != r[j]
  }

  /** `sorted(s)` for a set of strings: every element exactly once, in
      increasing order. */
  function SortedElements(s: set<string>): (r: seq<string>)
    ensures |r| == |s|
    ensures forall x :: x in r <==> x in s
    ensures StrictlySorted(r)
    decreases |s|
  {
    if s == {} then []
    else
      LeastExists(s);
      LeastUnique(s);
      var m :| m in s && IsLeast(m, s);
      var rest := SortedElements(s - {m});
      var r := [m] + rest;
      assert forall j :: 0 <= j < |rest| ==> rest[j] in s - {m};
      assert forall j :: 1 <= j < |r| ==> r[j] == rest[j - 1];
      assert StrictlySorted(r) by {
        forall i, j | 0 <= i < j < |r| ensures LessEq(r[i], r[j]) && r[i] != r[j] {
          if i == 0 {
            assert r[j] in s - {m};
          }
        }
      }
      r
  }
}

=== FILE: loader.dfy ===
/** The form responses as read from the CSV export
    (friend-roulette-overlaps.py, load_availability_data): one entry per
    respondent, mapping each hour block to the days ticked for it. */
module Loader {
  import opened Results
  import opened Text
  import opened Cells

  /** The column holding the respondent's identifier. */
  const IdColumn: string := "AndrewID"

  /** Every hour-block question of the form starts with this text. */
  const BlockPrefix: string := "Please check which hour blocks"

  /** One response as csv.DictReader gives it: column header to cell text.
      A column with no cell in this row (a short row, for which the reader
      supplies None) is absent from the map. */
  type Row = map<string, string>

  /** The export: its header line and its rows. */
  datatype Table = Table(fieldnames: seq<string>, rows: seq<Row>)

  /** Hour-block label to the days ticked for it. */
  type Availability = map<string, set<string>>

  /** One respondent. */
  datatype Person = Person(id: string, availability: Availability)

  /** The header of an hour-block question. */
  predicate IsBlockHeader(header: string) {
    BlockPrefix <= header
  }

  /** The hour-block label in a question header: the text after the first
      '[' up to the next ']' (or to the end of the next piece). A header with
      no '[' makes `load_availability_data` index past the end of its split
      (IndexError), modelled as `MalformedHeader`. */
  function BlockLabel(header: string): (r: Result<string>)
    ensures r.Ok? <==> '[' in header
    ensures r.Ok? ==> Avoids(r.value, '[') && Avoids(r.value, ']')
  {
    var pieces := Split(header, "[");
    SplitChar(header, '[');
    if |pieces| < 2 then Err(MalformedHeader(header))
    else
      SplitChar(pieces[1], ']');
      JoinAvoids(Split(pieces[1], "]"), "]", '[');
      Ok(Split(pieces[1], "]")[0])
  }

  /** The second piece of text split on '[' is what follows the first '['
      up to the next one. */
  lemma SecondPiece(before: string, rest: string)
    requires Avoids(before, '[')
    ensures |Split(before + "[" + rest, "[")| >= 2
    ensures Split(before + "[" + rest, "[")[1] == Split(rest, "[")[0]
  {
    assert before + "[" + rest == before + ("[" + rest);
    SplitPrefixFree(before, "[" + rest, "[");
    SplitLeadingSep(rest, "[");
  }

  /** The first piece of text split on '[' runs up to the first '['. */
  lemma FirstPieceExtends(a: string, t: string, sep: string)
    requires |sep| == 1 && Avoids(a, sep[0])
    ensures Split(a + t, sep)[0] == a + Split(t, sep)[0]
  {
    SplitPrefixFree(a, t, sep);
  }

  /** A label closed by ']' is the first piece when split on ']'. */
  lemma ClosedLabel(blockLabel: string, y: string)
    requires Avoids(blockLabel, ']')
    ensures Split(blockLabel + "]" + y, "]")[0] == blockLabel
  {
    assert blockLabel + "]" + y == blockLabel + ("]" + y);
    SplitPrefixFree(blockLabel, "]" + y, "]");
    SplitLeadingSep(y, "]");
    assert blockLabel + [] == blockLabel;
  }

  /** The label between the first bracket pair of a header is the one read
      from it. */
  lemma BlockLabelOfHeader(before: string, blockLabel: string, after: string)
    requires Avoids(before, '[') && Avoids(blockLabel, '[') && Avoids(blockLabel, ']')
    ensures BlockLabel(before + "[" + blockLabel + "]" + after) == Ok(blockLabel)
  {
    var closed := blockLabel + "]";
    var rest := closed + after;
    assert before + "[" + blockLabel + "]" + after == before + "[" + rest;
    SecondPiece(before, rest);
    assert Avoids(closed, '[');
    FirstPieceExtends(closed, after, "[");
    var y := Split(after, "[")[0];
    assert closed + y == blockLabel + "]" + y;
    ClosedLabel(blockLabel, y);
  }

  /** The days of the cell under `header`; a missing cell holds no days, as
      `parse_availability` reads None. A cell holds days exactly when it is
      present and not blank. */
  function CellDays(row: Row, header: string): (days: set<string>)
    ensures days == {} <==> header !in row || Strip(row[header]) == []
  {
    if header in row then ParseAvailability(row[header]) else {}
  }

  /** Every hour-block header carries a '['. */
  predicate HeadersWellFormed(fieldnames: seq<string>) {
    forall i :: 0 <= i < |fieldnames| && IsBlockHeader(fieldnames[i]) ==> '[' in fieldnames[i]
  }

  /** No hour block is stored with an empty set of days. */
  predicate NoEmptyDays(a: Availability) {
    forall b :: b in a ==> a[b] != {}
  }

  /** The loop over the header line for one row, `acc` holding what the
      earlier columns stored: each hour-block column with ticked days stores
      them under its label, replacing what an earlier column with the same
      label stored; other columns are skipped. The first hour-block header
      without a label aborts the load. */
  function RowAvailabilityFrom(fieldnames: seq<string>, row: Row, acc: Availability): Result<Availability>
    decreases |fieldnames|
  {
    if fieldnames == [] then Ok(acc)
    else
      var header := fieldnames[0];
      if IsBlockHeader(header) then
        var blk :- BlockLabel(header);
        var days := CellDays(row, header);
        RowAvailabilityFrom(fieldnames[1..], row, if days != {} then acc[blk := days] else acc)
      else
        RowAvailabilityFrom(fieldnames[1..], row, acc)
  }

  /** The row loop fails exactly on an hour-block header without a label;
      it never drops a label stored earlier, and it stores no empty set of
      days. */
  lemma {:induction false} RowAvailabilityFromFacts(fieldnames: seq<string>, row: Row, acc: Availability)
    ensures var r := RowAvailabilityFrom(fieldnames, row, acc);
      && (r.Ok? <==> HeadersWellFormed(fieldnames))
      && (r.Ok? && NoEmptyDays(acc) ==> NoEmptyDays(r.value))
      && (r.Ok? ==> acc.Keys <= r.value.Keys)
    decreases |fieldnames|
  {
    if fieldnames != [] {
      var header := fieldnames[0];
      HeadersWellFormedCons(fieldnames);
      if IsBlockHeader(header) {
        var named := BlockLabel(header);
        if named.Ok? {
          var days := CellDays(row, header);
          var next := if days != {} then acc[named.value := days] else acc;
          StoreNonEmpty(acc, named.value, days);
          assert RowAvailabilityFrom(fieldnames, row, acc) == RowAvailabilityFrom(fieldnames[1..], row, next);
          RowAvailabilityFromFacts(fieldnames[1..], row, next);
        }
      } else {
        RowAvailabilityFromFacts(fieldnames[1..], row, acc);
      }
    }
  }

  /** Storing a set of days only when it is not empty keeps every label
      and stores no empty set. */
  lemma StoreNonEmpty(acc: Availability, blk: string, days: set<string>)
    ensures var next := if days != {} then acc[blk := days] else acc;
      && (NoEmptyDays(acc) ==> NoEmptyDays(next))
      && acc.Keys <= next.Keys
  {
  }

  lemma HeadersWellFormedCons(fieldnames: seq<string>)
    requires fieldnames != []
    ensures HeadersWellFormed(fieldnames) <==>
      (IsBlockHeader(fieldnames[0]) ==> '[' in fieldnames[0]) && HeadersWellFormed(fieldnames[1..])
  {
    assert forall i :: 0 < i < |fieldnames| ==> fieldnames[i] == fieldnames[1..][i - 1];
  }

  /** The availability one row records. */
  function RowAvailability(fieldnames: seq<string>, row: Row): Result<Availability> {
    RowAvailabilityFrom(fieldnames, row, map[])
  }

  /** Column `header` stores days under label `blk` for this row. */
  predicate Contributes(header: string, row: Row, blk: string) {
    IsBlockHeader(header) && BlockLabel(header) == Ok(blk) && CellDays(row, header) != {}
  }

  /** Reference reading of a row: the days stored under `blk` are those of the
      LAST column labelled `blk` whose cell holds any days. */
  function LastContribution(fieldnames: seq<string>, row: Row, blk: string): Option<set<string>>
    decreases |fieldnames|
  {
    if fieldnames == [] then None
    else
      var header := fieldnames[|fieldnames| - 1];
      if Contributes(header, row, blk) then Some(CellDays(row, header))
      else LastContribution(fieldnames[..|fieldnames| - 1], row, blk)
  }

  /** The last contribution in a list is that of its tail if the tail has
      one, and otherwise that of its head. */
  lemma {:induction false} LastContributionCons(fieldnames: seq<string>, row: Row, blk: string)
    requires fieldnames != []
    ensures LastContribution(fieldnames, row, blk) ==
      if LastContribution(fieldnames[1..], row, blk).Some? then LastContribution(fieldnames[1..], row, blk)
      else if Contributes(fieldnames[0], row, blk) then Some(CellDays(row, fieldnames[0]))
      else None
    decreases |fieldnames|
  {
    if |fieldnames| > 1 {
      var init := fieldnames[..|fieldnames| - 1];
      assert init[1..] == fieldnames[1..][..|fieldnames[1..]| - 1];
      assert init[0] == fieldnames[0];
      LastContributionCons(init, row, blk);
    } else {
      assert fieldnames[1..] == [];
      assert fieldnames[..0] == [];
    }
  }

  /** The row loop keeps, for each label, the last column's non-empty days,
      and what `acc` held for labels no column of the row contributes to. */
  lemma {:induction false} RowAvailabilityFromLastWins(fieldnames: seq<string>, row: Row, acc: Availability, blk: string)
    requires RowAvailabilityFrom(fieldnames, row, acc).Ok?
    ensures var m := RowAvailabilityFrom(fieldnames, row, acc).value;
      && (blk in m <==> LastContribution(fieldnames, row, blk).Some? || blk in acc)
      && (blk in m ==> m[blk] == if LastContribution(fieldnames, row, blk).Some?
                                 then LastContribution(fieldnames, row, blk).value else acc[blk])
    decreases |fieldnames|
  {
    if fieldnames != [] {
      LastContributionCons(fieldnames, row, blk);
      var header := fieldnames[0];
      if IsBlockHeader(header) {
        var named := BlockLabel(header).value;
        var days := CellDays(row, header);
        RowAvailabilityFromLastWins(fieldnames[1..], row, if days != {} then acc[named := days] else acc, blk);
      } else {
        RowAvailabilityFromLastWins(fieldnames[1..], row, acc, blk);
      }
    }
  }

  /** A row stores under each label exactly the days of the last column with
      that label whose cell holds any days, and stores nothing else. */
  lemma RowAvailabilityLastWins(fieldnames: seq<string>, row: Row)
    requires HeadersWellFormed(fieldnames)
    ensures RowAvailability(fieldnames, row).Ok?
    ensures forall blk :: blk in RowAvailability(fieldnames, row).value <==> LastContribution(fieldnames, row, blk).Some?
    ensures forall blk :: blk in RowAvailability(fieldnames, row).value ==>
      RowAvailability(fieldnames, row).value[blk] == LastContribution(fieldnames, row, blk).value
  {
    RowAvailabilityFromFacts(fieldnames, row, map[]);
    forall blk ensures blk in RowAvailability(fieldnames, row).value <==> LastContribution(fieldnames, row, blk).Some?
      ensures blk in RowAvailability(fieldnames, row).value ==>
        RowAvailability(fieldnames, row).value[blk] == LastContribution(fieldnames, row, blk).value
    {
      RowAvailabilityFromLastWins(fieldnames, row, map[], blk);
    }
  }

  /** No two respondents share an identifier. */
  predicate DistinctIds(people: seq<Person>) {
    forall i, j :: 0 <= i < j < |people| ==> people[i].id != people[j].id
  }

  /** `data.get(id)`: the availability stored for `id`. */
  function Lookup(people: seq<Person>, id: string): (r: Option<Availability>)
    ensures r.Some? <==> exists i :: 0 <= i < |people| && people[i].id == id
  {
    if people == [] then None
    else if people[0].id == id then Some(people[0].availability)
    else Lookup(people[1..], id)
  }

  /** `data[id] = availability`: a new identifier is added at the end; an
      existing one keeps its place and has its availability replaced. */
  function Upsert(people: seq<Person>, id: string, availability: Availability): seq<Person>
  {
    if people == [] then [Person(id, availability)]
    else if people[0].id == id then [Person(id, availability)] + people[1..]
    else [people[0]] + Upsert(people[1..], id, availability)
  }

  /** After storing, `id` maps to the new availability and every other
      identifier maps as before; a new identifier goes at the end, a known
      one keeps its place, and every stored person is the new one or an old
      one. */
  lemma UpsertFacts(people: seq<Person>, id: string, availability: Availability)
    ensures var r := Upsert(people, id, availability);
      && Lookup(r, id) == Some(availability)
      && (forall x :: x != id ==> Lookup(r, x) == Lookup(people, x))
      && (Lookup(people, id).None? ==> r == people + [Person(id, availability)])
      && (Lookup(people, id).Some? ==> |r| == |people| && forall i :: 0 <= i < |r| ==> r[i].id == people[i].id)
      && (forall i :: 0 <= i < |r| ==> r[i] == Person(id, availability) || r[i] in people)
  {
    UpsertLookup(people, id, availability);
    UpsertShape(people, id, availability);
  }

  /** What looking up a stored sequence finds. */
  lemma {:induction false} UpsertLookup(people: seq<Person>, id: string, availability: Availability)
    ensures Lookup(Upsert(people, id, availability), id) == Some(availability)
    ensures forall x :: x != id ==> Lookup(Upsert(people, id, availability), x) == Lookup(people, x)
    decreases |people|
  {
    if people != [] && people[0].id != id {
      var tail := Upsert(people[1..], id, availability);
      UpsertLookup(people[1..], id, availability);
      var r := [people[0]] + tail;
      assert r[0] == people[0] && r[1..] == tail;
    }
  }

  /** Where the stored person goes: at the end for a new identifier, in
      place of the old one for a known identifier. */
  lemma {:induction false} UpsertShape(people: seq<Person>, id: string, availability: Availability)
    ensures var r := Upsert(people, id, availability);
      && (Lookup(people, id).None? ==> r == people + [Person(id, availability)])
      && (Lookup(people, id).Some? ==> |r| == |people| && forall i :: 0 <= i < |r| ==> r[i].id == people[i].id)
      && (forall i :: 0 <= i < |r| ==> r[i] == Person(id, availability) || r[i] in people)
    decreases |people|
  {
    if people != [] && people[0].id != id {
      var tail := Upsert(people[1..], id, availability);
      UpsertShape(people[1..], id, availability);
      assert Lookup(people, id) == Lookup(people[1..], id);
      assert people == [people[0]] + people[1..];
      var r := [people[0]] + tail;
      assert forall i :: 1 <= i < |r| ==> r[i] == tail[i - 1];
    }
  }

  /** Storing under an identifier keeps identifiers distinct. */
  lemma UpsertKeepsDistinct(people: seq<Person>, id: string, availability: Availability)
    ensures DistinctIds(people) ==> DistinctIds(Upsert(people, id, availability))
  {
    var r := Upsert(people, id, availability);
    UpsertFacts(people, id, availability);
    if DistinctIds(people) && Lookup(people, id).None? {
      assert forall i :: 0 <= i < |people| ==> people[i].id != id;
    }
  }

  /** One row of the loop: its identifier and its availability, stored. */
  function LoadRow(fieldnames: seq<string>, row: Row, people: seq<Person>): (r: Result<seq<Person>>)
    ensures r.Ok? <==> IdColumn in row && HeadersWellFormed(fieldnames)
    ensures r.Ok? && DistinctIds(people) ==> DistinctIds(r.value)
    ensures r.Ok? && (forall i :: 0 <= i < |people| ==> NoEmptyDays(people[i].availability)) ==>
      forall i :: 0 <= i < |r.value| ==> NoEmptyDays(r.value[i].availability)
  {
    if IdColumn !in row then Err(MissingIdentifier)
    else
      RowAvailabilityFromFacts(fieldnames, row, map[]);
      assert NoEmptyDays(map[]);
      var availability :- RowAvailability(fieldnames, row);
      UpsertKeepsDistinct(people, row[IdColumn], availability);
      UpsertFacts(people, row[IdColumn], availability);
      Ok(Upsert(people, row[IdColumn], availability))
  }

  /** The row loop of `load_availability_data`, `people` holding what the
      earlier rows stored. */
  function LoadRows(fieldnames: seq<string>, rows: seq<Row>, people: seq<Person>): (r: Result<seq<Person>>)
    ensures r.Ok? && DistinctIds(people) ==> DistinctIds(r.value)
    ensures r.Ok? && (forall i :: 0 <= i < |people| ==> NoEmptyDays(people[i].availability)) ==>
      forall i :: 0 <= i < |r.value| ==> NoEmptyDays(r.value[i].availability)
    decreases |rows|
  {
    if rows == [] then Ok(people)
    else
      var stored :- LoadRow(fieldnames, rows[0], people);
      LoadRows(fieldnames, rows[1..], stored)
  }

  /** `load_availability_data` once the export is read: an export with no
      rows gives no respondents whatever its header line. */
  function Load(table: Table): (r: Result<seq<Person>>)
    ensures r.Ok? <==> (table.rows == [] || HeadersWellFormed(table.fieldnames)) && AllIdentified(table.rows)
  {
    LoadRowsSucceeds(table.fieldnames, table.rows, []);
    LoadRows(table.fieldnames, table.rows, [])
  }

  /** Every row has a cell in the identifier column. */
  predicate AllIdentified(rows: seq<Row>) {
    forall k :: 0 <= k < |rows| ==> IdColumn in rows[k]
  }

  lemma AllIdentifiedCons(rows: seq<Row>)
    requires rows != []
    ensures AllIdentified(rows) <==> IdColumn in rows[0] && AllIdentified(rows[1..])
  {
    assert forall k :: 1 <= k < |rows| ==> rows[k] == rows[1..][k - 1];
  }

  lemma {:induction false} LoadRowsSucceeds(fieldnames: seq<string>, rows: seq<Row>, people: seq<Person>)
    ensures LoadRows(fieldnames, rows, people).Ok? <==>
      (rows == [] || HeadersWellFormed(fieldnames)) && AllIdentified(rows)
    decreases |rows|
  {
    if rows != [] {
      AllIdentifiedCons(rows);
      var r := LoadRow(fieldnames, rows[0], people);
      if r.Ok? {
        LoadRowsSucceeds(fieldnames, rows[1..], r.value);
      }
    }
  }

  /** Loading one more row is loading the others and then that row. */
  lemma {:induction false} LoadRowsSnoc(fieldnames: seq<string>, rows: seq<Row>, row: Row, people: seq<Person>)
    ensures LoadRows(fieldnames, rows + [row], people) ==
      match LoadRows(fieldnames, rows, people)
      case Ok(stored) => LoadRow(fieldnames, row, stored)
      case Err(e) => Err(e)
    decreases |rows|
  {
    if rows == [] {
      assert [] + [row] == [row];
      assert [row][1..] == [];
    } else {
      assert (rows + [row])[0] == rows[0];
      assert (rows + [row])[1..] == rows[1..] + [row];
      var r := LoadRow(fieldnames, rows[0], people);
      if r.Ok? {
        LoadRowsSnoc(fieldnames, rows[1..], row, r.value);
      }
    }
  }

  /** The identifier column of each row, in order. */
  function RowIds(rows: seq<Row>): seq<string>
    requires AllIdentified(rows)
  {
    seq(|rows|, k requires 0 <= k < |rows| => rows[k][IdColumn])
  }

  /** Each identifier once, in the order of its first occurrence. */
  function FirstOccurrences(xs: seq<string>): seq<string>
    decreases |xs|
  {
    if xs == [] then []
    else
      var seen := FirstOccurrences(xs[..|xs| - 1]);
      if xs[|xs| - 1] in seen then seen else seen + [xs[|xs| - 1]]
  }

  /** Reference reading of the export for one identifier: the last row that
      carries it. */
  function LastRowWith(rows: seq<Row>, id: string): Option<Row>
    decreases |rows|
  {
    if rows == [] then None
    else if IdColumn in rows[|rows| - 1] && rows[|rows| - 1][IdColumn] == id then Some(rows[|rows| - 1])
    else LastRowWith(rows[..|rows| - 1], id)
  }

  function PeopleIds(people: seq<Person>): seq<string> {
    seq(|people|, i requires 0 <= i < |people| => people[i].id)
  }

  /** One identifier more in the rows adds it at the end of the first
      occurrences, unless it occurred already. */
  lemma FirstOccurrencesSnoc(xs: seq<string>, x: string)
    ensures FirstOccurrences(xs + [x]) == if x in FirstOccurrences(xs) then FirstOccurrences(xs) else FirstOccurrences(xs) + [x]
  {
    assert (xs + [x])[..|xs|] == xs;
  }

  /** Storing under an identifier adds it at the end of the identifiers
      unless it is there already. */
  lemma PeopleIdsCons(p: Person, ps: seq<Person>)
    ensures PeopleIds([p] + ps) == [p.id] + PeopleIds(ps)
  {
  }

  lemma {:induction false} UpsertIds(people: seq<Person>, id: string, availability: Availability)
    ensures PeopleIds(Upsert(people, id, availability)) ==
      if id in PeopleIds(people) then PeopleIds(people) else PeopleIds(people) + [id]
    decreases |people|
  {
    var r := Upsert(people, id, availability);
    if people == [] {
      assert PeopleIds(r) == [id];
    } else if people[0].id == id {
      assert PeopleIds(people)[0] == id;
      assert PeopleIds(r) == PeopleIds(people);
    } else {
      var tail := Upsert(people[1..], id, availability);
      UpsertIds(people[1..], id, availability);
      assert r == [people[0]] + tail;
      PeopleIdsCons(people[0], people[1..]);
      PeopleIdsCons(people[0], tail);
      assert people == [people[0]] + people[1..];
      var a, xs := people[0].id, PeopleIds(people[1..]);
      assert PeopleIds(people) == [a] + xs;
      assert PeopleIds(r) == [a] + PeopleIds(tail);
      assert id in PeopleIds(people) <==> id in xs;
      if id !in xs {
        assert [a] + (xs + [id]) == ([a] + xs) + [id];
      }
    }
  }

  /** Respondents come out in the order their identifiers first appear in
      the rows, each once. */
  lemma {:induction false} LoadOrder(fieldnames: seq<string>, rows: seq<Row>)
    requires LoadRows(fieldnames, rows, []).Ok?
    requires AllIdentified(rows)
    ensures PeopleIds(LoadRows(fieldnames, rows, []).value) == FirstOccurrences(RowIds(rows))
    decreases |rows|
  {
    if rows != [] {
      var init := rows[..|rows| - 1];
      var row := rows[|rows| - 1];
      SplitLastRow(rows);
      LoadRowsSnoc(fieldnames, init, row, []);
      var before := LoadRows(fieldnames, init, []);
      assert before.Ok?;
      LoadOrder(fieldnames, init);
      var id := row[IdColumn];
      var stored := LoadRow(fieldnames, row, before.value);
      assert stored == Ok(Upsert(before.value, id, RowAvailability(fieldnames, row).value));
      UpsertIds(before.value, id, RowAvailability(fieldnames, row).value);
      FirstOccurrencesSnoc(RowIds(init), id);
    }
  }

  /** A non-empty list of identified rows is its first rows and its last. */
  lemma SplitLastRow(rows: seq<Row>)
    requires rows != [] && AllIdentified(rows)
    ensures rows == rows[..|rows| - 1] + [rows[|rows| - 1]]
    ensures AllIdentified(rows[..|rows| - 1])
    ensures RowIds(rows) == RowIds(rows[..|rows| - 1]) + [rows[|rows| - 1][IdColumn]]
  {
  }

  /** Each respondent's availability is the one the LAST row carrying their
      identifier records, and there is a respondent for exactly the
      identifiers some row carries. */
  lemma {:induction false} LoadLastRowWins(fieldnames: seq<string>, rows: seq<Row>, x: string)
    requires LoadRows(fieldnames, rows, []).Ok?
    ensures Lookup(LoadRows(fieldnames, rows, []).value, x).Some? <==> LastRowWith(rows, x).Some?
    ensures Lookup(LoadRows(fieldnames, rows, []).value, x).Some? ==>
      RowAvailability(fieldnames, LastRowWith(rows, x).value) == Ok(Lookup(LoadRows(fieldnames, rows, []).value, x).value)
    decreases |rows|
  {
    if rows != [] {
      var init := rows[..|rows| - 1];
      var row := rows[|rows| - 1];
      assert rows == init + [row];
      LoadRowsSnoc(fieldnames, init, row, []);
      LoadLastRowWins(fieldnames, init, x);
      var before := LoadRows(fieldnames, init, []).value;
      if IdColumn in row && RowAvailability(fieldnames, row).Ok? {
        UpsertFacts(before, row[IdColumn], RowAvailability(fieldnames, row).value);
      }
    }
  }

  /** What a successful load gives: one respondent per distinct identifier,
      in the order each identifier first appears; each respondent's
      availability is the one recorded by the LAST row carrying that
      identifier; and no hour block is stored with no days. */
  lemma LoadFacts(table: Table)
    requires Load(table).Ok?
    ensures AllIdentified(table.rows)
    ensures var people := Load(table).value;
      && DistinctIds(people)
      && PeopleIds(people) == FirstOccurrences(RowIds(table.rows))
      && (forall i :: 0 <= i < |people| ==> NoEmptyDays(people[i].availability))
      && (forall x :: Lookup(people, x).Some? <==> LastRowWith(table.rows, x).Some?)
      && (forall x :: Lookup(people, x).Some? ==>
            RowAvailability(table.fieldnames, LastRowWith(table.rows, x).value) == Ok(Lookup(people, x).value))
  {
    LoadOrder(table.fieldnames, table.rows);
    forall x ensures Lookup(Load(table).value, x).Some? <==> LastRowWith(table.rows, x).Some?
      ensures Lookup(Load(table).value, x).Some? ==>
        RowAvailability(table.fieldnames, LastRowWith(table.rows, x).value) == Ok(Lookup(Load(table).value, x).value)
    {
      LoadLastRowWins(table.fieldnames, table.rows, x);
    }
  }

  /** With distinct identifiers, each respondent is found under their own
      identifier. */
  lemma {:induction false} LookupDistinct(people: seq<Person>, i: nat)
    requires DistinctIds(people) && i < |people|
    ensures Lookup(people, people[i].id) == Some(people[i].availability)
    decreases i
  {
    if i > 0 {
      assert people[0].id != people[i].id;
      assert people[1..][i - 1] == people[i];
      LookupDistinct(people[1..], i - 1);
    }
  }
}

=== FILE: numerals.dfy ===
/** Decimal numerals as Python's `str(n)` writes them and `int(s)` reads
    them. */
module Numerals {
  import opened Results
  import opened Text

  predicate IsDigit(c: char) {
    '0' <= c <= '9'
  }

  /** Every character of `s` is an ASCII decimal digit. */
  predicate AllDigits(s: string) {
    forall i :: 0 <= i < |s| ==> IsDigit(s[i])
  }

  function DigitChar(d: nat): (c: char)
    requires d < 10
    ensures IsDigit(c) && c as int - '0' as int == d
  {
    ('0' as int + d) as char
  }

  /** Python's `str(n)` for a non-negative integer: no sign, no leading
      zero, at least one digit. */
  function NatToString(n: nat): (r: string)
    ensures r != [] && AllDigits(r)
    ensures |r| > 1 ==> r[0] != '0'
    decreases n
  {
    if n < 10 then [DigitChar(n)] else NatToString(n / 10) + [DigitChar(n % 10)]
  }

  /** Python's `str(i)` for any integer: a minus sign before the digits of a
      negative number. */
  function IntToString(i: int): (r: string)
    ensures r != [] && NoSpace(r)
    ensures i < 0 <==> r[0] == '-'
  {
    if i < 0 then "-" + NatToString(-i) else NatToString(i)
  }

  /** The number a string of decimal digits denotes. */
  function DigitsValue(s: string): nat
    requires AllDigits(s)
  {
    if s == [] then 0
    else 10 * DigitsValue(s[..|s| - 1]) + (s[|s| - 1] as int - '0' as int)
  }

  /** Python's `int(s)` in base 10: surrounding whitespace is ignored, one
      optional sign is allowed, and then there must be at least one digit
      and nothing else; `None` stands for the ValueError. */
  function ParseInt(s: string): Option<int>
  {
    var t := Strip(s);
    if t == [] then None
    else if t[0] == '-' || t[0] == '+' then
      var digits := t[1..];
      if digits != [] && AllDigits(digits) then
        var magnitude: int := DigitsValue(digits);
        Some(if t[0] == '-' then -magnitude else magnitude)
      else None
    else if AllDigits(t) then
      Some(DigitsValue(t))
    else None
  }

  /** Reading back a rendered natural number gives the number. */
  lemma {:induction false} DigitsValueOfNatToString(n: nat)
    ensures DigitsValue(NatToString(n)) == n
    decreases n
  {
    if n >= 10 {
      var s := NatToString(n);
      assert s[..|s| - 1] == NatToString(n / 10);
      DigitsValueOfNatToString(n / 10);
    }
  }

  /** `int(str(i)) == i` for every integer. */
  lemma ParseIntOfIntToString(i: int)
    ensures ParseInt(IntToString(i)) == Some(i)
  {
    var s := IntToString(i);
    if i < 0 {
      var digits := NatToString(-i);
      assert s == "-" + digits && s[1..] == digits;
      DigitsValueOfNatToString(-i);
      ParseIntNegative(s);
    } else {
      DigitsValueOfNatToString(i);
      ParseIntUnsigned(s);
    }
  }

  /** `int` reads a minus sign and digits, with nothing around them, as the
      negated value of the digits. */
  lemma ParseIntNegative(t: string)
    requires |t| > 1 && t[0] == '-' && AllDigits(t[1..])
    ensures ParseInt(t) == Some(-(DigitsValue(t[1..]) as int))
  {
    StripUnchanged(t);
  }

  /** `int` reads digits, with nothing around them, as their value. */
  lemma ParseIntUnsigned(t: string)
    requires t != [] && AllDigits(t)
    ensures ParseInt(t) == Some(DigitsValue(t))
  {
    StripUnchanged(t);
  }
}

=== FILE: overlap.dfy ===
/** The overlap finder (friend-roulette-overlaps.py,
    find_overlapping_pairs_by_day): for every pair of respondents, the days on
    which some hour block suits both, each with the condensed time ranges of
    the blocks that suit both on that day. */
module Overlap {
  import opened Results
  import opened Lex
  import opened Blocks
  import opened Loader

  /** The ranges two respondents share on one day; `day` is the plural key
      the report uses ("Mondays"). */
  datatype DaySchedule = DaySchedule(day: string, ranges: seq<string>)

  /** One reported pair, `first` before `second` in the respondents' order. */
  datatype PairOverlap = PairOverlap(first: string, second: string, schedule: seq<DaySchedule>)

  /** The days both ticked for hour block `blk`, a block missing from one
      side counting as no days (`get(hour_block, set())`). */
  function CommonDays(a: Availability, b: Availability, blk: string): set<string> {
    if blk in a && blk in b then a[blk] * b[blk] else {}
  }

  /** The hour blocks that suit both on `day`: `day_to_hours[day]` as a set. */
  function BlocksOn(a: Availability, b: Availability, day: string): set<string> {
    set blk | blk in a && blk in b && day in a[blk] && day in b[blk]
  }

  /** The days some hour block suits both on: the keys of `day_to_hours`. */
  function SharedDays(a: Availability, b: Availability): set<string> {
    set blk, d | blk in a && blk in b && d in a[blk] && d in b[blk] :: d
  }

  /** The hour blocks, of either respondent, that suit both on at least one
      day. */
  function SharedBlocks(a: Availability, b: Availability): set<string> {
    set blk | blk in a.Keys + b.Keys && CommonDays(a, b, blk) != {}
  }

  lemma SharedDaysIff(a: Availability, b: Availability, d: string)
    ensures d in SharedDays(a, b) <==> BlocksOn(a, b, d) != {}
  {
    if d in SharedDays(a, b) {
      var blk :| blk in a && blk in b && d in a[blk] && d in b[blk];
      assert blk in BlocksOn(a, b, d);
    }
    if BlocksOn(a, b, d) != {} {
      var blk :| blk in BlocksOn(a, b, d);
    }
  }

  lemma SharedBlocksIff(a: Availability, b: Availability, blk: string)
    ensures blk in SharedBlocks(a, b) <==> exists d :: d in SharedDays(a, b) && blk in BlocksOn(a, b, d)
  {
    if blk in SharedBlocks(a, b) {
      var d :| d in a[blk] * b[blk];
      assert d in SharedDays(a, b) && blk in BlocksOn(a, b, d);
    }
    if exists d :: d in SharedDays(a, b) && blk in BlocksOn(a, b, d) {
      var d :| d in SharedDays(a, b) && blk in BlocksOn(a, b, d);
      assert d in a[blk] * b[blk];
    }
  }

  /** The plural day key without its final 's'. */
  function Singular(key: string): string {
    if key == [] then [] else key[..|key| - 1]
  }

  /** The ranges of one day: the day's shared blocks condensed. The blocks
      are visited in increasing label order where the script visits a set in
      hash order; `Blocks.CondenseHourBlocksOrderIndependent` shows that any
      other listing of the same labels gives the same ranges when the blocks
      start at distinct minutes. */
  function DayRanges(a: Availability, b: Availability, day: string): Result<seq<string>> {
    CondenseHourBlocks(SortedElements(BlocksOn(a, b, day)))
  }

  /** A day's ranges are built exactly when every block shared that day is
      a well-formed label, and there is at least one range when some block is
      shared that day. */
  lemma DayRangesFacts(a: Availability, b: Availability, day: string)
    ensures DayRanges(a, b, day).Ok? <==> forall blk :: blk in BlocksOn(a, b, day) ==> ParseBlock(blk).Ok?
    ensures DayRanges(a, b, day).Ok? && BlocksOn(a, b, day) != {} ==> DayRanges(a, b, day).value != []
  {
    CondenseEnumerated(SortedElements(BlocksOn(a, b, day)), BlocksOn(a, b, day));
  }

  /** The loop over the sorted days of one pair, `rangesOf` giving a day's
      condensed ranges: a day's entry is its plural with its ranges, a day
      without ranges is left out, and a failure for any day aborts the whole
      report. */
  function ScheduleDays(days: seq<string>, rangesOf: string -> Result<seq<string>>): (r: Result<seq<DaySchedule>>)
    ensures r.Ok? <==> forall k :: 0 <= k < |days| ==> rangesOf(days[k]).Ok?
    ensures r.Ok? ==> |r.value| <= |days|
    ensures r.Ok? && (forall k :: 0 <= k < |days| ==> rangesOf(days[k]).value != []) ==>
      && |r.value| == |days|
      && forall k :: 0 <= k < |days| ==>
           r.value[k].day == days[k] + "s" && Ok(r.value[k].ranges) == rangesOf(days[k])
    decreases |days|
  {
    if days == [] then Ok([])
    else
      assert forall k :: 1 <= k < |days| ==> days[k] == days[1..][k - 1];
      var ranges :- rangesOf(days[0]);
      var rest :- ScheduleDays(days[1..], rangesOf);
      Ok(if ranges != [] then [DaySchedule(days[0] + "s", ranges)] + rest else rest)
  }

  /** `formatted_result` for one pair: the days both share, in increasing
      order, each with its condensed ranges. */
  function PairSchedule(a: Availability, b: Availability): Result<seq<DaySchedule>> {
    ScheduleDays(SortedElements(SharedDays(a, b)), day => DayRanges(a, b, day))
  }

  /** The day loop over the days of a set succeeds exactly when every day's
      ranges are built. */
  lemma ScheduleSetSucceeds(days: seq<string>, s: set<string>, rangesOf: string -> Result<seq<string>>)
    requires forall x :: x in days <==> x in s
    ensures ScheduleDays(days, rangesOf).Ok? <==> forall d :: d in s ==> rangesOf(d).Ok?
  {
    if ScheduleDays(days, rangesOf).Ok? {
      forall d | d in s ensures rangesOf(d).Ok? {
        var k :| 0 <= k < |days| && days[k] == d;
      }
    }
  }

  /** The day loop over the days of a set in strictly increasing order, when
      every day has ranges: one entry per day, keyed by its plural, in
      increasing order of the day, holding that day's ranges. */
  lemma ScheduleSetFacts(days: seq<string>, s: set<string>, rangesOf: string -> Result<seq<string>>)
    requires |days| == |s| && StrictlySorted(days)
    requires forall x :: x in days <==> x in s
    requires forall d :: d in s ==> rangesOf(d).Ok? && rangesOf(d).value != []
    ensures ScheduleDays(days, rangesOf).Ok?
    ensures var r := ScheduleDays(days, rangesOf).value;
      && |r| == |s|
      && (forall d :: d in s <==> exists k :: 0 <= k < |r| && r[k].day == d + "s")
      && (forall k :: 0 <= k < |r| ==> Singular(r[k].day) in s && r[k].day == Singular(r[k].day) + "s")
      && (forall k, l :: 0 <= k < l < |r| ==> LessEq(Singular(r[k].day), Singular(r[l].day)) && r[k].day != r[l].day)
      && (forall k :: 0 <= k < |r| ==> rangesOf(Singular(r[k].day)) == Ok(r[k].ranges) && r[k].ranges != [])
  {
    forall k | 0 <= k < |days| ensures rangesOf(days[k]).Ok? && rangesOf(days[k]).value != [] {
      assert days[k] in s;
    }
    ScheduleAligned(days, rangesOf);
    var r := ScheduleDays(days, rangesOf).value;
    EntriesFollowDays(days, s, r);
  }

  /** Entries keyed by the plurals of the days of a set, one per day in
      strictly increasing order: each day of the set has an entry, each key
      is the plural of a day of the set, and keys increase with their days. */
  lemma EntriesFollowDays(days: seq<string>, s: set<string>, r: seq<DaySchedule>)
    requires StrictlySorted(days) && forall x :: x in days <==> x in s
    requires |r| == |days|
    requires forall k :: 0 <= k < |r| ==> Singular(r[k].day) == days[k] && r[k].day == days[k] + "s"
    ensures forall d :: d in s <==> exists k :: 0 <= k < |r| && r[k].day == d + "s"
    ensures forall k :: 0 <= k < |r| ==> Singular(r[k].day) in s
    ensures forall k, l :: 0 <= k < l < |r| ==> LessEq(Singular(r[k].day), Singular(r[l].day)) && r[k].day != r[l].day
  {
    forall d | d in s ensures exists k :: 0 <= k < |r| && r[k].day == d + "s" {
      var k :| 0 <= k < |days| && days[k] == d;
      assert r[k].day == d + "s";
    }
    forall d | exists k :: 0 <= k < |r| && r[k].day == d + "s" ensures d in s {
      var k :| 0 <= k < |r| && r[k].day == d + "s";
      assert (d + "s")[..|d|] == d;
      assert days[k] == d;
      assert days[k] in days;
    }
    forall k | 0 <= k < |r| ensures Singular(r[k].day) in s {
      assert days[k] in days;
    }
  }

  /** When every day has ranges, entry `k` of the loop belongs to day `k`. */
  lemma ScheduleAligned(days: seq<string>, rangesOf: string -> Result<seq<string>>)
    requires forall k :: 0 <= k < |days| ==> rangesOf(days[k]).Ok? && rangesOf(days[k]).value != []
    ensures ScheduleDays(days, rangesOf).Ok?
    ensures var r := ScheduleDays(days, rangesOf).value;
      && |r| == |days|
      && forall k :: 0 <= k < |r| ==>
           Singular(r[k].day) == days[k] && r[k].day == days[k] + "s" && rangesOf(days[k]) == Ok(r[k].ranges)
  {
    var r := ScheduleDays(days, rangesOf).value;
    forall k | 0 <= k < |r| ensures Singular(r[k].day) == days[k] {
      assert (days[k] + "s")[..|days[k]|] == days[k];
    }
  }

  /** A pair's schedule is built exactly when every block both share is a
      well-formed label. */
  lemma PairScheduleSucceeds(a: Availability, b: Availability)
    ensures PairSchedule(a, b).Ok? <==> forall blk :: blk in SharedBlocks(a, b) ==> ParseBlock(blk).Ok?
  {
    var rangesOf := day => DayRanges(a, b, day);
    ScheduleSetSucceeds(SortedElements(SharedDays(a, b)), SharedDays(a, b), rangesOf);
    if PairSchedule(a, b).Ok? {
      forall blk | blk in SharedBlocks(a, b) ensures ParseBlock(blk).Ok? {
        SharedBlocksIff(a, b, blk);
        var d :| d in SharedDays(a, b) && blk in BlocksOn(a, b, d);
        assert rangesOf(d).Ok?;
        DayRangesFacts(a, b, d);
      }
    }
    if forall blk :: blk in SharedBlocks(a, b) ==> ParseBlock(blk).Ok? {
      forall d | d in SharedDays(a, b) ensures rangesOf(d).Ok? {
        forall blk | blk in BlocksOn(a, b, d) ensures blk in SharedBlocks(a, b) {
          SharedBlocksIff(a, b, blk);
        }
        DayRangesFacts(a, b, d);
      }
    }
  }

  /** What a pair's schedule holds: an entry for exactly the days some block
      suits both on, keyed by the day's plural, in increasing order of the
      day; each entry holds that day's condensed shared blocks, never none.
      So the schedule is empty exactly when no block suits both on any day. */
  lemma PairScheduleFacts(a: Availability, b: Availability)
    requires PairSchedule(a, b).Ok?
    ensures var r := PairSchedule(a, b).value;
      && (r == [] <==> SharedDays(a, b) == {})
      && |r| == |SharedDays(a, b)|
      && (forall d :: d in SharedDays(a, b) <==> exists k :: 0 <= k < |r| && r[k].day == d + "s")
      && (forall k :: 0 <= k < |r| ==> Singular(r[k].day) in SharedDays(a, b) && r[k].day == Singular(r[k].day) + "s")
      && (forall k, l :: 0 <= k < l < |r| ==> LessEq(Singular(r[k].day), Singular(r[l].day)) && r[k].day != r[l].day)
      && (forall k :: 0 <= k < |r| ==> DayRanges(a, b, Singular(r[k].day)) == Ok(r[k].ranges) && r[k].ranges != [])
  {
    var rangesOf := day => DayRanges(a, b, day);
    var days := SortedElements(SharedDays(a, b));
    ScheduleSetSucceeds(days, SharedDays(a, b), rangesOf);
    forall d | d in SharedDays(a, b) ensures rangesOf(d).Ok? && rangesOf(d).value != [] {
      assert rangesOf(d).Ok?;
      SharedDaysIff(a, b, d);
      DayRangesFacts(a, b, d);
    }
    ScheduleSetFacts(days, SharedDays(a, b), rangesOf);
  }

  /** Some block suits both respondents of a pair on some day. */
  predicate Shares(a: Availability, b: Availability) {
    SharedDays(a, b) != {}
  }

  /** The index pairs (i, j) with i < j < n, in the order
      `itertools.combinations` yields them. */
  function Combinations(n: nat): (r: seq<(nat, nat)>)
    ensures forall k :: 0 <= k < |r| ==> r[k].0 < r[k].1 < n
    ensures forall i, j :: 0 <= i < j < n ==> (i, j) in r
    ensures forall k, l :: 0 <= k < l < |r| ==> PairBefore(r[k], r[l])
  {
    CombinationsFrom(0, n)
  }

  /** `p` comes strictly before `q` in lexicographic order. */
  predicate PairBefore(p: (nat, nat), q: (nat, nat)) {
    p.0 < q.0 || (p.0 == q.0 && p.1 < q.1)
  }

  /** The pairs whose first index is at least `i`. */
  function CombinationsFrom(i: nat, n: nat): (r: seq<(nat, nat)>)
    ensures forall k :: 0 <= k < |r| ==> i <= r[k].0 < r[k].1 < n
    ensures forall x, y :: i <= x < y < n ==> (x, y) in r
    ensures forall k, l :: 0 <= k < l < |r| ==> PairBefore(r[k], r[l])
    decreases n - i
  {
    if i >= n then []
    else
      var row := seq(n - i - 1, k requires 0 <= k < n - i - 1 => (i, i + 1 + k));
      var rest := CombinationsFrom(i + 1, n);
      assert forall y :: i < y < n ==> row[y - i - 1] == (i, y);
      row + rest
  }

  /** A pair's schedule was built and is not empty, so the pair is reported. */
  predicate Reported(schedule: Result<seq<DaySchedule>>) {
    schedule.Ok? && schedule.value != []
  }

  /** Every index of `pairs` names a respondent. */
  predicate PairsWithin(people: seq<Person>, pairs: seq<(nat, nat)>) {
    forall k :: 0 <= k < |pairs| ==> pairs[k].0 < |people| && pairs[k].1 < |people|
  }

  /** Strictly increasing in lexicographic order. */
  predicate PairsSorted(pairs: seq<(nat, nat)>) {
    forall k, l :: 0 <= k < l < |pairs| ==> PairBefore(pairs[k], pairs[l])
  }

  /** The pairs of `pairs`, in order, whose schedule under `scheduleOf` is
      reported. */
  function ReportedPairs(people: seq<Person>, pairs: seq<(nat, nat)>,
                         scheduleOf: (Availability, Availability) -> Result<seq<DaySchedule>>): (r: seq<(nat, nat)>)
    requires PairsWithin(people, pairs)
    ensures PairsWithin(people, r)
    decreases |pairs|
  {
    if pairs == [] then []
    else
      var p := pairs[0];
      var rest := ReportedPairs(people, pairs[1..], scheduleOf);
      assert PairsWithin(people, [p] + rest);
      if Reported(scheduleOf(people[p.0].availability, people[p.1].availability)) then [p] + rest else rest
  }

  /** A pair is selected exactly when it is one of `pairs` and its schedule
      is reported. */
  lemma {:induction false} ReportedPairsMembers(people: seq<Person>, pairs: seq<(nat, nat)>,
                                                scheduleOf: (Availability, Availability) -> Result<seq<DaySchedule>>)
    requires PairsWithin(people, pairs)
    ensures forall x :: x in ReportedPairs(people, pairs, scheduleOf) <==>
      x in pairs && Reported(scheduleOf(people[x.0].availability, people[x.1].availability))
    decreases |pairs|
  {
    if pairs != [] {
      ReportedPairsMembers(people, pairs[1..], scheduleOf);
      assert forall x :: x in pairs <==> x == pairs[0] || x in pairs[1..];
    }
  }

  /** Selection keeps the order of `pairs`. */
  lemma {:induction false} ReportedPairsSorted(people: seq<Person>, pairs: seq<(nat, nat)>,
                                               scheduleOf: (Availability, Availability) -> Result<seq<DaySchedule>>)
    requires PairsWithin(people, pairs) && PairsSorted(pairs)
    ensures PairsSorted(ReportedPairs(people, pairs, scheduleOf))
    decreases |pairs|
  {
    if pairs != [] {
      var p := pairs[0];
      var rest := ReportedPairs(people, pairs[1..], scheduleOf);
      assert PairsSorted(pairs[1..]) by {
        forall k, l | 0 <= k < l < |pairs[1..]| ensures PairBefore(pairs[1..][k], pairs[1..][l]) {
          assert pairs[1..][k] == pairs[k + 1] && pairs[1..][l] == pairs[l + 1];
        }
      }
      ReportedPairsSorted(people, pairs[1..], scheduleOf);
      ReportedPairsMembers(people, pairs[1..], scheduleOf);
      forall m | 0 <= m < |rest| ensures PairBefore(p, rest[m]) {
        assert rest[m] in rest;
        var t :| 0 <= t < |pairs[1..]| && pairs[1..][t] == rest[m];
        assert pairs[t + 1] == rest[m];
      }
    }
  }

  /** The loop over the pairs, `scheduleOf` giving a pair's schedule: a pair
      whose schedule is not empty is reported under its two identifiers, and
      a failure for any pair aborts the report. */
  function CollectOverlaps(people: seq<Person>, pairs: seq<(nat, nat)>,
                           scheduleOf: (Availability, Availability) -> Result<seq<DaySchedule>>): Result<seq<PairOverlap>>
    requires PairsWithin(people, pairs)
    decreases |pairs|
  {
    if pairs == [] then Ok([])
    else
      var p := pairs[0];
      var schedule :- scheduleOf(people[p.0].availability, people[p.1].availability);
      var rest :- CollectOverlaps(people, pairs[1..], scheduleOf);
      Ok(if schedule != [] then [PairOverlap(people[p.0].id, people[p.1].id, schedule)] + rest else rest)
  }

  /** The pairs loop succeeds exactly when every pair's schedule is built. */
  lemma {:induction false} CollectOverlapsSucceeds(people: seq<Person>, pairs: seq<(nat, nat)>,
                                                   scheduleOf: (Availability, Availability) -> Result<seq<DaySchedule>>)
    requires PairsWithin(people, pairs)
    ensures CollectOverlaps(people, pairs, scheduleOf).Ok? <==> forall k :: 0 <= k < |pairs| ==>
      scheduleOf(people[pairs[k].0].availability, people[pairs[k].1].availability).Ok?
    decreases |pairs|
  {
    if pairs != [] {
      assert forall k :: 1 <= k < |pairs| ==> pairs[k] == pairs[1..][k - 1];
      CollectOverlapsSucceeds(people, pairs[1..], scheduleOf);
    }
  }

  /** Entry `k` of `r` belongs to pair `k` of `sel`: it carries the pair's
      two identifiers and its schedule under `scheduleOf`. */
  predicate EntriesMatch(people: seq<Person>, sel: seq<(nat, nat)>, r: seq<PairOverlap>,
                         scheduleOf: (Availability, Availability) -> Result<seq<DaySchedule>>)
  {
    && PairsWithin(people, sel)
    && |r| == |sel|
    && forall k :: 0 <= k < |r| ==>
         && r[k].first == people[sel[k].0].id
         && r[k].second == people[sel[k].1].id
         && scheduleOf(people[sel[k].0].availability, people[sel[k].1].availability) == Ok(r[k].schedule)
  }

  /** One more pair in front, with its entry in front. */
  lemma EntriesMatchCons(people: seq<Person>, p: (nat, nat), sel: seq<(nat, nat)>, e: PairOverlap, r: seq<PairOverlap>,
                         scheduleOf: (Availability, Availability) -> Result<seq<DaySchedule>>)
    requires EntriesMatch(people, sel, r, scheduleOf)
    requires p.0 < |people| && p.1 < |people|
    requires e.first == people[p.0].id && e.second == people[p.1].id
    requires scheduleOf(people[p.0].availability, people[p.1].availability) == Ok(e.schedule)
    ensures EntriesMatch(people, [p] + sel, [e] + r, scheduleOf)
  {
    var sel', r' := [p] + sel, [e] + r;
    forall k | 0 <= k < |r'|
      ensures r'[k].first == people[sel'[k].0].id
      ensures r'[k].second == people[sel'[k].1].id
      ensures scheduleOf(people[sel'[k].0].availability, people[sel'[k].1].availability) == Ok(r'[k].schedule)
    {
      if k > 0 {
        assert r'[k] == r[k - 1] && sel'[k] == sel[k - 1];
      }
    }
  }

  /** Entry `k` of a successful pairs loop belongs to the `k`-th selected
      pair: it carries the pair's two identifiers and its schedule. */
  lemma {:induction false} CollectOverlapsEntries(people: seq<Person>, pairs: seq<(nat, nat)>,
                                                  scheduleOf: (Availability, Availability) -> Result<seq<DaySchedule>>)
    requires PairsWithin(people, pairs)
    requires CollectOverlaps(people, pairs, scheduleOf).Ok?
    ensures EntriesMatch(people, ReportedPairs(people, pairs, scheduleOf), CollectOverlaps(people, pairs, scheduleOf).value, scheduleOf)
    decreases |pairs|
  {
    if pairs != [] {
      var p := pairs[0];
      var schedule := scheduleOf(people[p.0].availability, people[p.1].availability);
      assert schedule.Ok?;
      var rest := CollectOverlaps(people, pairs[1..], scheduleOf);
      assert rest.Ok?;
      CollectOverlapsEntries(people, pairs[1..], scheduleOf);
      var sel := ReportedPairs(people, pairs[1..], scheduleOf);
      if schedule.value != [] {
        var e := PairOverlap(people[p.0].id, people[p.1].id, schedule.value);
        assert ReportedPairs(people, pairs, scheduleOf) == [p] + sel;
        assert CollectOverlaps(people, pairs, scheduleOf).value == [e] + rest.value;
        EntriesMatchCons(people, p, sel, e, rest.value, scheduleOf);
      } else {
        assert ReportedPairs(people, pairs, scheduleOf) == sel;
        assert CollectOverlaps(people, pairs, scheduleOf).value == rest.value;
      }
    }
  }

  /** `find_overlapping_pairs_by_day` on the loaded respondents, in load
      order. */
  function FindOverlappingPairsByDay(people: seq<Person>): Result<seq<PairOverlap>> {
    CollectOverlaps(people, Combinations(|people|), PairSchedule)
  }

  /** Whether a pair is reported: a pair's schedule, once built, is empty
      exactly when no hour block suits both on any day. */
  lemma ReportedIffShares(a: Availability, b: Availability)
    requires PairSchedule(a, b).Ok?
    ensures Reported(PairSchedule(a, b)) <==> Shares(a, b)
  {
    PairScheduleFacts(a, b);
  }

  /** The pairs loop over every pair of respondents succeeds exactly when
      every pair's schedule is built. */
  lemma CollectAllSucceeds(people: seq<Person>, pairs: seq<(nat, nat)>,
                           scheduleOf: (Availability, Availability) -> Result<seq<DaySchedule>>)
    requires forall k :: 0 <= k < |pairs| ==> pairs[k].0 < pairs[k].1 < |people|
    requires forall i, j :: 0 <= i < j < |people| ==> (i, j) in pairs
    ensures CollectOverlaps(people, pairs, scheduleOf).Ok? <==>
      forall i, j :: 0 <= i < j < |people| ==> scheduleOf(people[i].availability, people[j].availability).Ok?
  {
    CollectOverlapsSucceeds(people, pairs, scheduleOf);
    if CollectOverlaps(people, pairs, scheduleOf).Ok? {
      forall i, j | 0 <= i < j < |people| ensures scheduleOf(people[i].availability, people[j].availability).Ok? {
        assert (i, j) in pairs;
        var k :| 0 <= k < |pairs| && pairs[k] == (i, j);
      }
    }
  }

  /** The pairs loop over every pair of respondents, in strictly increasing
      order, when a pair's schedule is reported exactly when the pair shares
      a block: one entry per sharing pair, in that order, each under the two
      identifiers with the pair's schedule. */
  lemma CollectAllFacts(people: seq<Person>, pairs: seq<(nat, nat)>,
                        scheduleOf: (Availability, Availability) -> Result<seq<DaySchedule>>)
    requires forall k :: 0 <= k < |pairs| ==> pairs[k].0 < pairs[k].1 < |people|
    requires forall i, j :: 0 <= i < j < |people| ==> (i, j) in pairs
    requires PairsSorted(pairs)
    requires forall a, b :: scheduleOf(a, b).Ok? ==> (Reported(scheduleOf(a, b)) <==> Shares(a, b))
    requires CollectOverlaps(people, pairs, scheduleOf).Ok?
    ensures var sel := ReportedPairs(people, pairs, scheduleOf);
      var r := CollectOverlaps(people, pairs, scheduleOf).value;
      && |r| == |sel|
      && PairsSorted(sel)
      && (forall i, j :: 0 <= i < j < |people| ==>
            ((i, j) in sel <==> Shares(people[i].availability, people[j].availability)))
      && (forall k :: 0 <= k < |r| ==>
            && sel[k].0 < sel[k].1 < |people|
            && r[k].first == people[sel[k].0].id
            && r[k].second == people[sel[k].1].id
            && scheduleOf(people[sel[k].0].availability, people[sel[k].1].availability) == Ok(r[k].schedule)
            && r[k].schedule != [])
  {
    var sel := ReportedPairs(people, pairs, scheduleOf);
    var r := CollectOverlaps(people, pairs, scheduleOf).value;
    CollectAllSucceeds(people, pairs, scheduleOf);
    ReportedPairsMembers(people, pairs, scheduleOf);
    ReportedPairsSorted(people, pairs, scheduleOf);
    CollectOverlapsEntries(people, pairs, scheduleOf);
    forall k | 0 <= k < |sel| ensures sel[k] in pairs {
      assert sel[k] in sel;
    }
    forall k | 0 <= k < |r| ensures r[k].schedule != [] {
      assert sel[k] in sel;
    }
  }

  /** The report is built exactly when, for every pair of respondents, every
      hour block both ticked a common day for is a well-formed label. */
  lemma FindOverlapsSucceeds(people: seq<Person>)
    ensures FindOverlappingPairsByDay(people).Ok? <==>
      forall i, j, blk :: 0 <= i < j < |people| && blk in SharedBlocks(people[i].availability, people[j].availability) ==>
        ParseBlock(blk).Ok?
  {
    CollectAllSucceeds(people, Combinations(|people|), PairSchedule);
    forall i, j | 0 <= i < j < |people| {
      PairScheduleSucceeds(people[i].availability, people[j].availability);
    }
  }

  /** What the report holds: one entry per pair of respondents, earlier
      respondent first, that share a block on some day, in the order
      `combinations` visits the pairs, each with that pair's schedule. */
  lemma FindOverlapsFacts(people: seq<Person>)
    requires FindOverlappingPairsByDay(people).Ok?
    ensures PairsWithin(people, Combinations(|people|))
    ensures var sel := ReportedPairs(people, Combinations(|people|), PairSchedule);
      var r := FindOverlappingPairsByDay(people).value;
      && |r| == |sel|
      && PairsSorted(sel)
      && (forall i, j :: 0 <= i < j < |people| ==>
            ((i, j) in sel <==> Shares(people[i].availability, people[j].availability)))
      && (forall k :: 0 <= k < |r| ==>
            && sel[k].0 < sel[k].1 < |people|
            && r[k].first == people[sel[k].0].id
            && r[k].second == people[sel[k].1].id
            && PairSchedule(people[sel[k].0].availability, people[sel[k].1].availability) == Ok(r[k].schedule)
            && r[k].schedule != [])
  {
    forall a, b | PairSchedule(a, b).Ok? ensures Reported(PairSchedule(a, b)) <==> Shares(a, b) {
      ReportedIffShares(a, b);
    }
    CollectAllFacts(people, Combinations(|people|), PairSchedule);
  }

  /** A report whose entries carry the identifiers of strictly increasing
      index pairs, with distinct identifiers: no respondent is paired with
      themself, no pair appears twice in either order, and two respondents
      appear together exactly when their index pair is selected. */
  lemma DistinctReport(people: seq<Person>, sel: seq<(nat, nat)>, r: seq<PairOverlap>)
    requires DistinctIds(people) && |r| == |sel| && PairsSorted(sel)
    requires forall k :: 0 <= k < |r| ==>
      sel[k].0 < sel[k].1 < |people| && r[k].first == people[sel[k].0].id && r[k].second == people[sel[k].1].id
    ensures forall k :: 0 <= k < |r| ==> r[k].first != r[k].second
    ensures forall k, l :: 0 <= k < l < |r| ==>
      (r[k].first, r[k].second) != (r[l].first, r[l].second)
      && (r[k].first, r[k].second) != (r[l].second, r[l].first)
    ensures forall i, j :: 0 <= i < j < |people| ==>
      ((exists k :: 0 <= k < |r| && r[k].first == people[i].id && r[k].second == people[j].id) <==> (i, j) in sel)
  {
    forall k | 0 <= k < |r| ensures r[k].first != r[k].second {
      SameIdSameIndex(people, sel[k].0, sel[k].1);
    }
    forall k, l | 0 <= k < l < |r|
      ensures (r[k].first, r[k].second) != (r[l].first, r[l].second)
      ensures (r[k].first, r[k].second) != (r[l].second, r[l].first)
    {
      var p, q := sel[k], sel[l];
      assert PairBefore(p, q);
      if p.0 != q.0 {
        SameIdSameIndex(people, p.0, q.0);
      } else {
        SameIdSameIndex(people, p.1, q.1);
      }
      SameIdSameIndex(people, p.0, q.1);
    }
    forall i, j | 0 <= i < j < |people|
      ensures (exists k :: 0 <= k < |r| && r[k].first == people[i].id && r[k].second == people[j].id) <==> (i, j) in sel
    {
      if (i, j) in sel {
        var k :| 0 <= k < |sel| && sel[k] == (i, j);
        assert r[k].first == people[i].id && r[k].second == people[j].id;
      }
      if exists k :: 0 <= k < |r| && r[k].first == people[i].id && r[k].second == people[j].id {
        var k :| 0 <= k < |r| && r[k].first == people[i].id && r[k].second == people[j].id;
        SameIdSameIndex(people, sel[k].0, i);
        SameIdSameIndex(people, sel[k].1, j);
        assert sel[k] == (i, j);
      }
    }
  }

  /** With distinct identifiers, an identifier names one respondent. */
  lemma SameIdSameIndex(people: seq<Person>, x: nat, y: nat)
    requires DistinctIds(people) && x < |people| && y < |people|
    ensures people[x].id == people[y].id <==> x == y
  {
    if x < y {
      assert people[x].id != people[y].id;
    } else if y < x {
      assert people[y].id != people[x].id;
    }
  }

  /** With distinct identifiers, as loading guarantees: no respondent is
      paired with themself, no pair appears twice in either order, and two
      respondents are reported together exactly when they share a block on
      some day. */
  lemma FindOverlapsPairs(people: seq<Person>)
    requires FindOverlappingPairsByDay(people).Ok? && DistinctIds(people)
    ensures var r := FindOverlappingPairsByDay(people).value;
      && (forall k :: 0 <= k < |r| ==> r[k].first != r[k].second)
      && (forall k, l :: 0 <= k < l < |r| ==>
            (r[k].first, r[k].second) != (r[l].first, r[l].second)
            && (r[k].first, r[k].second) != (r[l].second, r[l].first))
      && (forall i, j :: 0 <= i < j < |people| ==>
            ((exists k :: 0 <= k < |r| && r[k].first == people[i].id && r[k].second == people[j].id)
             <==> Shares(people[i].availability, people[j].availability)))
  {
    var sel := ReportedPairs(people, Combinations(|people|), PairSchedule);
    var r := FindOverlappingPairsByDay(people).value;
    FindOverlapsFacts(people);
    DistinctReport(people, sel, r);
    forall i, j | 0 <= i < j < |people|
      ensures (exists k :: 0 <= k < |r| && r[k].first == people[i].id && r[k].second == people[j].id)
              <==> Shares(people[i].availability, people[j].availability)
    {
      assert (i, j) in sel <==> Shares(people[i].availability, people[j].availability);
    }
  }
}

=== FILE: results.dfy ===
/** Failure-compatible wrappers shared by the calculator's modules, and the
    error conditions the calculator can end in. A ValueError from `int()` or
    from unpacking a split and an IndexError from a header split each become
    an error here. So does a row with no identifier: the calculator raises a
    KeyError when the table has no identifier column, and stores a short
    row under the key `None`, which the model does not admit. */
module Results {

  /** An optional value, used where the calculator gets a value or raises. */
  datatype Option<+T> = None | Some(value: T) {

    predicate IsFailure() {
      None?
    }

    function PropagateFailure<U>(): Option<U>
      requires None?
    {
      None
    }

    function Extract(): T
      requires Some?
    {
      value
    }
  }

  /** The error conditions that abort a load or an overlap computation. */
  datatype Error =
    | MalformedBlockLabel(blockLabel: string)   // not "<hour> - <hour>" with integer hours
    | MalformedHeader(header: string)      // an hour-block column header without '['
    | MissingIdentifier                    // a row without an identifier cell

  /** The outcome of an operation that may end in one of the errors above. */
  datatype Result<+T> = Ok(value: T) | Err(error: Error) {

    predicate IsFailure() {
      Err?
    }

    function PropagateFailure<U>(): Result<U>
      requires Err?
    {
      Err(error)
    }

    function Extract(): T
      requires Ok?
    {
      value
    }
  }
}

=== FILE: text.dfy ===
/** The string operations the calculator borrows from Python's `str`:
    `strip()`, `rstrip(c)`, `in` on substrings, `replace(pat, '')`,
    `split(sep)` and `startswith`, each stated by what it computes. */
module Text {

  /** Python's `str.isspace()` on one character: exactly the characters that
      `strip()` and `int()` discard around their argument. */
  predicate IsSpace(c: char) {
    var n := c as int;
    || 9 <= n <= 13
    || 28 <= n <= 32
    || n == 0x85 || n == 0xA0 || n == 0x1680
    || 0x2000 <= n <= 0x200A
    || n == 0x2028 || n == 0x2029 || n == 0x202F || n == 0x205F || n == 0x3000
  }

  /** No character of `s` is whitespace. */
  predicate NoSpace(s: string) {
    forall i :: 0 <= i < |s| ==> !IsSpace(s[i])
  }

  /** No character of `s` is `c`. */
  predicate Avoids(s: string, c: char) {
    forall i :: 0 <= i < |s| ==> s[i] != c
  }

  /** `s` without its leading whitespace. */
  function TrimLeft(s: string): (r: string)
    ensures |r| <= |s| && r == s[|s| - |r|..]
    ensures forall i :: 0 <= i < |s| - |r| ==> IsSpace(s[i])
    ensures r == [] || !IsSpace(r[0])
  {
    if s != [] && IsSpace(s[0]) then TrimLeft(s[1..]) else s
  }

  /** `s` without its trailing whitespace. */
  function TrimRight(s: string): (r: string)
    ensures |r| <= |s| && r == s[..|r|]
    ensures forall i :: |r| <= i < |s| ==> IsSpace(s[i])
    ensures r == [] || !IsSpace(r[|r| - 1])
  {
    if s != [] && IsSpace(s[|s| - 1]) then TrimRight(s[..|s| - 1]) else s
  }

  /** Python's `s.strip()`: the slice of `s` left once a run of whitespace
      is cut from each end; it is the empty string exactly when `s` is all
      whitespace, and otherwise neither starts nor ends with whitespace. */
  function Strip(s: string): (r: string)
    ensures r == [] <==> forall i :: 0 <= i < |s| ==> IsSpace(s[i])
    ensures r != [] ==> !IsSpace(r[0]) && !IsSpace(r[|r| - 1])
  {
    var l := TrimLeft(s);
    TrimBoth(s, l, TrimRight(l));
    TrimRight(l)
  }

  /** `strip()` returns a slice of its argument with only whitespace cut
      from either side of it. */
  lemma StripSlice(s: string)
    ensures exists i :: TrimmedAt(s, Strip(s), i)
  {
    var l := TrimLeft(s);
    TrimBoth(s, l, TrimRight(l));
    assert TrimmedAt(s, Strip(s), |s| - |l|);
  }

  /** Cutting whitespace from the front of `s` (leaving `l`) and then from
      the back of `l` (leaving `r`) leaves a slice of `s` with only
      whitespace around it. */
  lemma TrimBoth(s: string, l: string, r: string)
    requires |l| <= |s| && l == s[|s| - |l|..]
    requires forall j :: 0 <= j < |s| - |l| ==> IsSpace(s[j])
    requires l == [] || !IsSpace(l[0])
    requires |r| <= |l| && r == l[..|r|]
    requires forall j :: |r| <= j < |l| ==> IsSpace(l[j])
    ensures TrimmedAt(s, r, |s| - |l|)
    ensures r == [] ==> l == []
  {
    var i := |s| - |l|;
    forall k | 0 <= k < |r|
      ensures r[k] == s[i + k]
    {
      assert r[k] == l[k] == s[i + k];
    }
    assert r == s[i..i + |r|];
    forall j | i + |r| <= j < |s|
      ensures IsSpace(s[j])
    {
      assert s[j] == l[j - i];
    }
  }

  /** `r` is the slice of `s` from `i` on, and everything of `s` before and
      after that slice is whitespace. */
  predicate TrimmedAt(s: string, r: string, i: int) {
    && 0 <= i <= |s| - |r|
    && r == s[i..i + |r|]
    && (forall j :: 0 <= j < i ==> IsSpace(s[j]))
    && (forall j :: i + |r| <= j < |s| ==> IsSpace(s[j]))
  }

  /** Stripping leaves a string with no surrounding whitespace unchanged. */
  lemma StripUnchanged(s: string)
    requires s == [] || (!IsSpace(s[0]) && !IsSpace(s[|s| - 1]))
    ensures Strip(s) == s
  {
  }

  /** A leading whitespace character does not survive stripping. */
  lemma StripLeadingSpace(c: char, s: string)
    requires IsSpace(c)
    ensures Strip([c] + s) == Strip(s)
  {
    assert ([c] + s)[1..] == s;
  }

  /** Python's `s.rstrip(c)`: `s` without every trailing occurrence of `c`. */
  function RStripChar(s: string, c: char): (r: string)
    ensures |r| <= |s| && r == s[..|r|]
    ensures forall i :: |r| <= i < |s| ==> s[i] == c
    ensures r == [] || r[|r| - 1] != c
  {
    if s != [] && s[|s| - 1] == c then RStripChar(s[..|s| - 1], c) else s
  }

  /** Python's `pat in s` for strings: `pat` occurs in `s` as a substring. */
  predicate Contains(s: string, pat: string)
    decreases |s|
  {
    pat <= s || (s != [] && Contains(s[1..], pat))
  }

  /** A string whose characters all differ from the first character of a
      non-empty pattern does not contain the pattern. */
  lemma {:induction false} AvoidsFirstNotContains(s: string, pat: string)
    requires pat != [] && Avoids(s, pat[0])
    ensures !Contains(s, pat)
    decreases |s|
  {
    if s != [] {
      assert s[0] != pat[0];
      AvoidsFirstNotContains(s[1..], pat);
    }
  }

  /** Python's `s.replace(pat, '')`: removes the occurrences of `pat` found
      by a left-to-right scan that never reuses a removed character. */
  function RemoveAll(s: string, pat: string): (r: string)
    requires pat != []
    ensures |r| <= |s|
    ensures !Contains(s, pat) ==> r == s
    ensures Contains(s, pat) ==> |r| <= |s| - |pat|
    decreases |s|
  {
    if s == [] then []
    else if pat <= s then RemoveAll(s[|pat|..], pat)
    else [s[0]] + RemoveAll(s[1..], pat)
  }

  /** Removing a pattern from text that avoids the pattern's first character,
      followed by the pattern, gives back the text. */
  lemma {:induction false} RemoveAllSuffix(s: string, pat: string)
    requires pat != [] && Avoids(s, pat[0])
    ensures RemoveAll(s + pat, pat) == s
    decreases |s|
  {
    if s == [] {
      assert pat[|pat|..] == [];
      assert pat + [] == pat;
    } else {
      assert (s + pat)[0] == s[0] != pat[0];
      assert (s + pat)[1..] == s[1..] + pat;
      RemoveAllSuffix(s[1..], pat);
      assert [s[0]] + s[1..] == s;
    }
  }

  /** `s.replace(pat, '')` is `''.join(s.split(pat))`: what is removed is
      exactly the occurrences of `pat` that `split` cuts at. */
  lemma {:induction false} RemoveAllIsJoinSplit(s: string, pat: string)
    requires pat != []
    ensures RemoveAll(s, pat) == Join(Split(s, pat), [])
    decreases |s|
  {
    if s != [] {
      if pat <= s {
        var rest := Split(s[|pat|..], pat);
        RemoveAllIsJoinSplit(s[|pat|..], pat);
        JoinLeadingEmpty(rest, []);
        assert [] + Join(rest, []) == Join(rest, []);
      } else {
        var rest := Split(s[1..], pat);
        RemoveAllIsJoinSplit(s[1..], pat);
        JoinPrepend(s[0], rest, []);
      }
    }
  }

  /** Python's `s.split(sep)`: the pieces between the occurrences of `sep`
      found by a left-to-right scan; there is always at least one piece, no
      piece holds `sep`, and joining the pieces with `sep` gives back `s`. */
  function Split(s: string, sep: string): (r: seq<string>)
    requires sep != []
    ensures |r| >= 1
    ensures Join(r, sep) == s
    ensures forall k :: 0 <= k < |r| ==> !Contains(r[k], sep)
    decreases |s|
  {
    if s == [] then [[]]
    else if sep <= s then
      var rest := Split(s[|sep|..], sep);
      JoinLeadingEmpty(rest, sep);
      assert sep + s[|sep|..] == s;
      assert !Contains([], sep);
      [[]] + rest
    else
      var rest := Split(s[1..], sep);
      JoinPrepend(s[0], rest, sep);
      assert [s[0]] + s[1..] == s;
      var first := [s[0]] + rest[0];
      JoinFirstPrefix(rest, sep);
      assert first <= s;
      assert !(sep <= first);
      assert first[1..] == rest[0];
      [first] + rest[1..]
  }

  /** Python's `split` cuts at the leftmost occurrences: no occurrence of
      `sep` starts inside a piece that a cut follows, not even one that
      would run into that cut. */
  lemma {:induction false} SplitLeftmost(s: string, sep: string)
    requires sep != []
    ensures forall k :: 0 <= k < |Split(s, sep)| - 1 ==>
      !Contains(Split(s, sep)[k] + sep[..|sep| - 1], sep)
    decreases |s|
  {
    var r := Split(s, sep);
    var short := sep[..|sep| - 1];
    if s != [] {
      if sep <= s {
        var rest := Split(s[|sep|..], sep);
        SplitLeftmost(s[|sep|..], sep);
        assert r == [[]] + rest;
        ShorterNotContains(short, sep);
        assert [] + short == short;
        assert forall k :: 1 <= k < |r| ==> r[k] == rest[k - 1];
      } else {
        var rest := Split(s[1..], sep);
        SplitLeftmost(s[1..], sep);
        var first := [s[0]] + rest[0];
        assert r == [first] + rest[1..];
        assert forall k :: 1 <= k < |r| ==> r[k] == rest[k];
        if |r| > 1 {
          FirstCutPrefix(r, sep);
          assert first + short <= first + sep;
          PrefixTransitive(first + short, first + sep, s);
          if sep <= first + short {
            PrefixTransitive(sep, first + short, s);
          }
          assert (first + short)[1..] == rest[0] + short;
        }
      }
    }
  }

  /** With a cut after the first piece, the first piece and the separator
      open the joined text. */
  lemma FirstCutPrefix(parts: seq<string>, sep: string)
    requires |parts| > 1
    ensures parts[0] + sep <= Join(parts, sep)
  {
    assert Join(parts, sep) == (parts[0] + sep) + Join(parts[1..], sep);
  }

  lemma PrefixTransitive(a: string, b: string, c: string)
    requires a <= b && b <= c
    ensures a <= c
  {
    assert forall i :: 0 <= i < |a| ==> a[i] == b[i] == c[i];
  }

  /** A text shorter than the pattern does not contain it. */
  lemma {:induction false} ShorterNotContains(t: string, pat: string)
    requires |t| < |pat|
    ensures !Contains(t, pat)
    decreases |t|
  {
    if t != [] {
      ShorterNotContains(t[1..], pat);
    }
  }

  /** The first part opens the joined text. */
  lemma JoinFirstPrefix(parts: seq<string>, sep: string)
    requires parts != []
    ensures parts[0] <= Join(parts, sep)
  {
  }

  /** Python's `sep.join(parts)`. */
  function Join(parts: seq<string>, sep: string): string
  {
    if parts == [] then []
    else if |parts| == 1 then parts[0]
    else parts[0] + sep + Join(parts[1..], sep)
  }

  /** An empty first part contributes only the separator. */
  lemma JoinLeadingEmpty(parts: seq<string>, sep: string)
    requires parts != []
    ensures Join([[]] + parts, sep) == sep + Join(parts, sep)
  {
    var x := [[]] + parts;
    assert x[0] == [] && x[1..] == parts;
  }

  /** A character put in front of the first part is put in front of the
      joined text. */
  lemma JoinPrepend(c: char, parts: seq<string>, sep: string)
    requires parts != []
    ensures Join([[c] + parts[0]] + parts[1..], sep) == [c] + Join(parts, sep)
  {
    var x := [[c] + parts[0]] + parts[1..];
    assert x[0] == [c] + parts[0] && x[1..] == parts[1..];
    if |parts| > 1 {
      assert Join(x, sep) == ([c] + parts[0]) + sep + Join(parts[1..], sep);
      assert Join(parts, sep) == parts[0] + sep + Join(parts[1..], sep);
    }
  }

  /** Splitting on one character: no piece holds it, and there is a single
      piece exactly when the text does not hold it. */
  lemma {:induction false} SplitChar(s: string, c: char)
    ensures forall k :: 0 <= k < |Split(s, [c])| ==> Avoids(Split(s, [c])[k], c)
    ensures |Split(s, [c])| == 1 <==> Avoids(s, c)
    decreases |s|
  {
    if s != [] {
      var rest := Split(s[1..], [c]);
      SplitChar(s[1..], c);
      if [c] <= s {
        assert s[|[c]|..] == s[1..];
        assert Split(s, [c]) == [[]] + rest;
        assert s[0] == c;
      } else {
        var r := Split(s, [c]);
        assert r == [[s[0]] + rest[0]] + rest[1..];
        assert s[0] != c;
        assert forall k :: 1 <= k < |r| ==> r[k] == rest[k];
        assert Avoids(s, c) <==> Avoids(s[1..], c) by {
          assert forall i :: 1 <= i < |s| ==> s[i] == s[1..][i - 1];
        }
      }
    }
  }

  /** Text free of the separator's first character is glued to the first
      piece of whatever follows it. */
  lemma {:induction false} SplitPrefixFree(a: string, t: string, sep: string)
    requires sep != [] && Avoids(a, sep[0])
    ensures Split(a + t, sep) == [a + Split(t, sep)[0]] + Split(t, sep)[1..]
    decreases |a|
  {
    var x := Split(t, sep);
    if a == [] {
      assert a + t == t;
      assert a + x[0] == x[0];
      assert x == [x[0]] + x[1..];
    } else {
      assert Avoids(a[1..], sep[0]) by {
        assert forall i :: 0 <= i < |a| - 1 ==> a[1..][i] == a[i + 1];
      }
      SplitAfterHead(a, t, sep);
      SplitPrefixFree(a[1..], t, sep);
      ConsGlue(a, x[0]);
    }
  }

  /** Text opening with a character other than the separator's first gives
      that character to the first piece of the rest. */
  lemma SplitAfterHead(a: string, t: string, sep: string)
    requires sep != [] && a != [] && a[0] != sep[0]
    ensures Split(a + t, sep) == [[a[0]] + Split(a[1..] + t, sep)[0]] + Split(a[1..] + t, sep)[1..]
  {
    var s := a + t;
    assert s[0] == a[0] && s[1..] == a[1..] + t;
    assert !(sep <= s) by {
      assert s[0] != sep[0];
    }
    SplitStep(s, sep);
  }

  /** Putting the head of `a` back in front of the rest of `a` glued to `u`. */
  lemma ConsGlue(a: string, u: string)
    requires a != []
    ensures [a[0]] + (a[1..] + u) == a + u
  {
    assert a == [a[0]] + a[1..];
  }

  /** Text that does not start with the separator gives its first character
      to the first piece of the rest. */
  lemma SplitStep(s: string, sep: string)
    requires sep != [] && s != [] && !(sep <= s)
    ensures Split(s, sep) == [[s[0]] + Split(s[1..], sep)[0]] + Split(s[1..], sep)[1..]
  {
  }

  /** A leading separator opens an empty first piece. */
  lemma SplitLeadingSep(t: string, sep: string)
    requires sep != []
    ensures Split(sep + t, sep) == [[]] + Split(t, sep)
  {
    assert sep <= sep + t;
    assert (sep + t)[|sep|..] == t;
  }

  /** Splitting undoes joining when no piece holds the separator's first
      character. */
  lemma {:induction false} SplitJoin(parts: seq<string>, sep: string)
    requires sep != [] && parts != []
    requires forall k :: 0 <= k < |parts| ==> Avoids(parts[k], sep[0])
    ensures Split(Join(parts, sep), sep) == parts
    decreases |parts|
  {
    if |parts| == 1 {
      SplitPrefixFree(parts[0], [], sep);
      assert parts[0] + [] == parts[0];
      assert parts == [parts[0]];
    } else {
      var tail := Join(parts[1..], sep);
      assert Join(parts, sep) == parts[0] + (sep + tail);
      SplitPrefixFree(parts[0], sep + tail, sep);
      SplitLeadingSep(tail, sep);
      SplitJoin(parts[1..], sep);
      assert parts[0] + [] == parts[0];
      assert parts == [parts[0]] + parts[1..];
    }
  }

  /** The two sides of a separator are recovered when neither holds the
      separator's first character. */
  lemma SplitPair(a: string, b: string, sep: string)
    requires sep != [] && Avoids(a, sep[0]) && Avoids(b, sep[0])
    ensures Split(a + sep + b, sep) == [a, b]
  {
    SplitJoin([a, b], sep);
    assert [a, b][1..] == [b];
  }

  /** A character absent from a joined string is absent from every part. */
  lemma {:induction false} JoinAvoids(parts: seq<string>, sep: string, c: char)
    requires Avoids(Join(parts, sep), c)
    ensures forall k :: 0 <= k < |parts| ==> Avoids(parts[k], c)
    decreases |parts|
  {
    if |parts| > 1 {
      var tail := Join(parts[1..], sep);
      assert Join(parts, sep) == parts[0] + sep + tail;
      assert forall i :: 0 <= i < |tail| ==> tail[i] == Join(parts, sep)[|parts[0]| + |sep| + i];
      assert forall i :: 0 <= i < |parts[0]| ==> parts[0][i] == Join(parts, sep)[i];
      JoinAvoids(parts[1..], sep, c);
      assert forall k :: 1 <= k < |parts| ==> parts[k] == parts[1..][k - 1];
    }
  }
}
